=== FILE: README.md ===
# Sudoku engine model

A Dafny model of the engine behind the CallToPowerGames Sudoku game: the
9x9 grid with its text encoding, the backtracking solver with its try
budget and its two validity scans, and the puzzle generator that fills,
removes, prunes and keeps a candidate only when a fresh solver completes
it. Grids are immutable values (`seq<seq<Int32>>`, always 9x9, 0 for an
empty cell), so "the solver works on a private copy" holds by
construction. Every random draw of the generator comes from an explicit
oracle record supplied by the caller.

Modules, in dependency order:

- `JavaText` (text.dfy): the Java `int` range and `String.split(" ")`,
  `trim()`, `Integer.parseInt` and `Integer.toString`, written out over `seq<char>`.
- `Grids` (grid.dfy): `Grid.java`, meaning `at`, `set`, `copy`,
  `isCompletelyFilled`, `toString` and `fromString`.
- `FileText` (file_text.dfy): the line trim-and-join normalisation of
  `FileUtils.readFromFile`, plus the save/load round trip through it.
- `Checks` (checks.dfy): rows, columns and boxes; `checkGrid` and
  `checkGridValidity` of `Solver.java`; `isLegal` of `Generator.java`.
- `Solving` (solver.dfy): the solver session and `solve`/`legal`.
- `Counting` (counting.dfy): `countFilledFields` and `countFilledSmallGridAround`.
- `Generation` (generator.dfy): `fillAndRemove`, `generate_helper`,
  `generate`, and the difficulty presets 35/28/22.

The model follows the code as written, including these behaviours:

- `fromString` splits on the single space character only. A tab or a
  newline inside the text is part of a piece, and `parseInt` then rejects it.
- `toString` ends every value with a space and every row with a newline.
  Its output splits into 82 pieces, so `fromString(toString())` fails and
  leaves the grid unchanged (`Grids.FromStringOfToString`). Only the
  trim-and-join pass of `readFromFile` makes the text decodable
  (`FileText.SaveLoadRoundTrip`).
- `solve` moves the first index fastest. It visits cell (i, j) at
  position 9j + i, so in the printed layout it walks column by column.
- `isLegal` of the generator treats zeros as values. An empty cell with an
  empty peer counts as "illegal", and the removal pass then sets it to 0,
  which changes nothing.
- A pruning scan draws a coin only at a candidate cell: `nextBoolean` is
  the last operand of a short-circuit `&&`. The source empties the chosen
  cell inside its loop and the loop conditions then stop the scan. The
  model's scan leaves its loops at once, reports the cell and empties it
  right after, which leaves the same grid.

## Model

| member | source | states |
|---|---|---|
| `JavaText.SplitAll` | src/main/java/de/calltopower/sudoku/util/Grid.java:63 | cutting at every space gives pieces that contain no space and that join back to the input with single spaces |
| `JavaText.DropTrailingEmpty` | src/main/java/de/calltopower/sudoku/util/Grid.java:63 | split's removal of trailing empty strings keeps a prefix of the pieces, removes only empty ones and leaves a non-empty last piece |
| `JavaText.Split` | src/main/java/de/calltopower/sudoku/util/Grid.java:63 | `split(" ")` gives space-free pieces; a string without a space is its own only piece; otherwise the pieces are the full cut at every space with only empty pieces dropped from the end, so the last one kept is not empty |
| `JavaText.SplitAllJoin` | src/main/java/de/calltopower/sudoku/util/Grid.java:63 | cutting the join of space-free pieces at every space gives those pieces back |
| `JavaText.SplitAllNoSpace` | src/main/java/de/calltopower/sudoku/util/Grid.java:63 | a string without a space is a single piece |
| `JavaText.SplitJoin` | src/main/java/de/calltopower/sudoku/util/Grid.java:63 | `split(" ")` inverts a join of space-free pieces, provided that with two or more pieces the last one is not empty |
| `JavaText.TrimStart` | src/main/java/de/calltopower/sudoku/util/FileUtils.java:96 | trimming the front removes exactly the leading characters at or below U+0020 |
| `JavaText.TrimEnd` | src/main/java/de/calltopower/sudoku/util/FileUtils.java:96 | trimming the back removes exactly the trailing characters at or below U+0020 |
| `JavaText.Trim` | src/main/java/de/calltopower/sudoku/util/FileUtils.java:102 | `trim()` returns a contiguous slice with only such characters outside it, and the slice starts and ends with a character above U+0020 |
| `JavaText.TrimUntouched` | src/main/java/de/calltopower/sudoku/util/FileUtils.java:102 | a string that already starts and ends with a character above U+0020 is its own trim |
| `JavaText.TrimDropsSpaces` | src/main/java/de/calltopower/sudoku/util/FileUtils.java:96 | one space added at either end of such a string is trimmed away again |
| `JavaText.DigitsValueNatDigits` | src/main/java/de/calltopower/sudoku/util/Grid.java:96 | the decimal digits printed for a natural number read back as that number |
| `JavaText.Show` | src/main/java/de/calltopower/sudoku/util/Grid.java:96 | a printed `int` is a non-empty run of digits, preceded by `-` exactly when the value is negative, with no leading zero unless the value is 0, which prints as `"0"` |
| `JavaText.ParseInt` | src/main/java/de/calltopower/sudoku/util/Grid.java:71 | `parseInt` accepts only text of one optional `+` or `-` followed by at least one decimal digit; a digit string, plain or with `+`, reads as its decimal value when that is below 2^31 and is rejected otherwise; with `-` it reads as the negated value down to -2^31 and is rejected beyond |
| `JavaText.ParseShow` | src/main/java/de/calltopower/sudoku/util/Grid.java:96 | every Java `int` printed by string concatenation parses back to itself |
| `JavaText.ShowIsToken` | src/main/java/de/calltopower/sudoku/util/Grid.java:96 | a printed `int` is non-empty and has no space, no line break and no character that `trim()` removes |
| `Grids.At` | src/main/java/de/calltopower/sudoku/util/Grid.java:25-31 | `at(i, j)` gives the stored value on the board and -1 off it |
| `Grids.Set` | src/main/java/de/calltopower/sudoku/util/Grid.java:33-40 | `set` succeeds exactly on the board; it then writes exactly the one cell, and off the board nothing changes |
| `Grids.AtPut` | src/main/java/de/calltopower/sudoku/util/Grid.java:25-40 | `at` after `set` sees the new value at the written cell, the old values elsewhere, and -1 off the board |
| `Grids.NewGrid` | src/main/java/de/calltopower/sudoku/util/Grid.java:12-23 | a new grid has every cell 0 |
| `Grids.Copy` | src/main/java/de/calltopower/sudoku/util/Grid.java:42-48 | after `copy(src)` every cell equals `src.at(i, j)`, so the copy equals `src` |
| `Grids.IsCompletelyFilled` | src/main/java/de/calltopower/sudoku/util/Grid.java:50-59 | true exactly when no cell is 0 |
| `Grids.ToString` | src/main/java/de/calltopower/sudoku/util/Grid.java:91-101 | `toString()` writes 81 spaces, one after every value, and ends with a newline |
| `Grids.ParseAll` | src/main/java/de/calltopower/sudoku/util/Grid.java:69-81 | succeeds exactly when every piece parses, and then yields each piece's value in order |
| `Grids.FromString` | src/main/java/de/calltopower/sudoku/util/Grid.java:61-89 | succeeds exactly when there are 81 pieces and all of them parse; then cell (i, j) holds piece 9i + j, and on failure the grid is unchanged |
| `Grids.SplitAllSize` | src/main/java/de/calltopower/sudoku/util/Grid.java:63 | a string with n spaces cuts into n + 1 pieces, and the last piece is non-empty when the string does not end in a space |
| `Grids.RowsTextSpaces` | src/main/java/de/calltopower/sudoku/util/Grid.java:91-101 | the text of n rows holds 9n spaces and ends in a newline |
| `Grids.ToStringPieces` | src/main/java/de/calltopower/sudoku/util/Grid.java:91-101 | `toString()` splits into 82 pieces |
| `Grids.FromStringOfToString` | src/main/java/de/calltopower/sudoku/util/Grid.java:64 | `fromString(toString())` fails and leaves the target grid as it was |
| `FileText.FirstBreak` | src/main/java/de/calltopower/sudoku/util/FileUtils.java:94 | finds the first line terminator, with none before it |
| `FileText.ReadLines` | src/main/java/de/calltopower/sudoku/util/FileUtils.java:94-98 | the lines `readLine` hands out contain no line terminator |
| `FileText.ReadLinesRows` | src/main/java/de/calltopower/sudoku/util/FileUtils.java:94-98 | read line by line, `toString`'s text gives the nine row texts in order |
| `FileText.ReadLinesNewline` | src/main/java/de/calltopower/sudoku/util/FileUtils.java:94-98 | a line without terminators followed by `\n` is read as that line, and reading goes on with the text after it |
| `FileText.JoinTrimmable` | src/main/java/de/calltopower/sudoku/util/FileUtils.java:96 | printed values joined by spaces start and end with a character that `trim()` keeps |
| `FileText.TrimRowText` | src/main/java/de/calltopower/sudoku/util/FileUtils.java:96 | a trimmed row text is its nine values separated by single spaces |
| `FileText.AccumulateRows` | src/main/java/de/calltopower/sudoku/util/FileUtils.java:95-98 | accumulating " " plus each trimmed row gives a space followed by all values separated by single spaces |
| `FileText.AccumulateNoBreak` | src/main/java/de/calltopower/sudoku/util/FileUtils.java:94-98 | lines without terminators accumulate to text without terminators |
| `FileText.ReadFromText` | src/main/java/de/calltopower/sudoku/util/FileUtils.java:92-102 | `readFromFile` returns text with no line terminator anywhere and no character at or below U+0020 at either end |
| `FileText.ReadBackText` | src/main/java/de/calltopower/sudoku/util/FileUtils.java:92-102 | reading a saved grid back gives its 81 printed values separated by single spaces |
| `FileText.TokensParse` | src/main/java/de/calltopower/sudoku/util/Grid.java:69-81 | each of the 81 printed values of a grid parses as a Java `int` |
| `FileText.FromStringTokens` | src/main/java/de/calltopower/sudoku/util/Grid.java:61-89 | `fromString` of those 81 values succeeds and rebuilds the grid exactly, whatever grid it is applied to |
| `FileText.SaveLoadRoundTrip` | src/main/java/de/calltopower/sudoku/util/Grid.java:61-101 | saving with `toString`, reading through `readFromFile` and decoding with `fromString` restores every cell |
| `Checks.BoxStartRange` | src/main/java/de/calltopower/sudoku/solver/Solver.java:51-52 | the box offset of an index in 0..8 is 0, 3 or 6 and lies within 2 below the index |
| `Checks.InBoxSymmetric` | src/main/java/de/calltopower/sudoku/solver/Solver.java:51-60 | sharing a box is symmetric for cells on the board |
| `Checks.PeersSymmetric` | src/main/java/de/calltopower/sudoku/solver/Solver.java:36-65 | sharing a row, column or box is symmetric |
| `Checks.IsLegal` | src/main/java/de/calltopower/sudoku/generator/Generator.java:167-192 | `isLegal(i, j)` is false exactly when another cell of row i, column j or the box holds the same value, zeros included |
| `Checks.CheckGrid` | src/main/java/de/calltopower/sudoku/solver/Solver.java:36-65 | `checkGrid` is true exactly when no two distinct cells of a unit hold the same value, zeros included |
| `Checks.CellValidity` | src/main/java/de/calltopower/sudoku/solver/Solver.java:70-92 | the per-cell tests of `checkGridValidity` as written, with the column test guarded by cell (i, k) |
| `Checks.CheckGridValidity` | src/main/java/de/calltopower/sudoku/solver/Solver.java:67-97 | `checkGridValidity` is true exactly when every cell passes those tests |
| `Checks.CellValidityIntended` | src/main/java/de/calltopower/sudoku/solver/Solver.java:70-92 | with the column guard on cell (k, j): true exactly when no peer holds the cell's non-zero value |
| `Checks.CheckGridValidityIntended` | src/main/java/de/calltopower/sudoku/solver/Solver.java:67-97 | the corrected scan is true exactly when no two peers hold the same non-zero value |
| `Checks.StrictPassesValidity` | src/main/java/de/calltopower/sudoku/solver/Solver.java:36-97 | a grid passing `checkGrid` passes `checkGridValidity` |
| `Checks.DistinctPassesValidity` | src/main/java/de/calltopower/sudoku/solver/Solver.java:67-97 | a grid without a non-zero clash passes `checkGridValidity`; the scan is never stricter than intended |
| `Checks.RowOrBoxClashFails` | src/main/java/de/calltopower/sudoku/solver/Solver.java:70-92 | two equal non-zero values in one row or one box always make `checkGridValidity` false |
| `Checks.GuardedColumnClashFails` | src/main/java/de/calltopower/sudoku/solver/Solver.java:76-80 | a non-zero column clash at (i, j) and (k, j) is caught when cell (i, k) or cell (k, i) is filled |
| `Checks.ColumnClashMissed` | src/main/java/de/calltopower/sudoku/solver/Solver.java:77 | 5 at (0, 5) and (3, 5) and nothing else passes `checkGridValidity`, although the two cells clash |
| `Checks.EmptyPassesValidity` | src/main/java/de/calltopower/sudoku/solver/Solver.java:67-97 | the all-zero grid passes the lenient scan |
| `Checks.TwoZerosFailStrict` | src/main/java/de/calltopower/sudoku/solver/Solver.java:39-43 | two empty cells in one row make `checkGrid` false |
| `Solving.NewSolver` | src/main/java/de/calltopower/sudoku/solver/Solver.java:22-30 | a new solver holds a cell-for-cell copy of the grid, the given budget and a counter of 0 |
| `Solving.UnitsScanMeaning` | src/main/java/de/calltopower/sudoku/solver/Solver.java:128-152 | the three `at` scans find v nowhere exactly when no cell of row i, column j or the box of (i, j) holds v |
| `Solving.Legal` | src/main/java/de/calltopower/sudoku/solver/Solver.java:128-152 | `legal(i, j, v)` holds exactly when no cell of row i, column j or the box of (i, j) holds v, the cell itself included |
| `Solving.PutSame` | src/main/java/de/calltopower/sudoku/util/Grid.java:33-40 | writing a cell's own value changes nothing |
| `Solving.PutPut` | src/main/java/de/calltopower/sudoku/util/Grid.java:33-40 | a second write to a cell overrides the first |
| `Solving.ClearKeepsDistinct` | src/main/java/de/calltopower/sudoku/solver/Solver.java:123 | emptying a cell never creates a non-zero clash |
| `Solving.PlaceKeepsDistinct` | src/main/java/de/calltopower/sudoku/solver/Solver.java:115-117 | placing a value that `legal` accepts never creates a non-zero clash |
| `Solving.PlaceNoNewClash` | src/main/java/de/calltopower/sudoku/solver/Solver.java:115-117 | a value that `legal` accepts, written into a cell, repeats no peer, whatever clashes the other cells have |
| `Solving.NoNewClashTrans` | src/main/java/de/calltopower/sudoku/solver/Solver.java:115-125 | a step that keeps the clues and adds no clash, after another that added none, adds none in all |
| `Solving.Solve` | src/main/java/de/calltopower/sudoku/solver/Solver.java:99-126 | every call bumps the counter; a false answer leaves the grid exactly as it was; only empty cells receive values, and only digits 1..9; every value the search writes differs from all its peers, so any clash of the result was already a clash of the clues, and clash-free clues stay clash-free; a true answer comes below the budget, after the cells from (i, j) on are filled, and after at least one call per remaining cell plus the wrap |
| `Solving.TryValues` | src/main/java/de/calltopower/sudoku/solver/Solver.java:115-125 | when no candidate completes the board the cell is reset to 0 and the rest restored; otherwise the values written, the cell's own included, repeat no peer, and the other guarantees carry over from `Solve` |
| `Solving.SolveSession` | src/main/java/de/calltopower/sudoku/solver/Solver.java:99-126 | `solve` on a session changes only that session's grid and counter; the budget stays, the counter grows, and a failure leaves the grid as it was |
| `Solving.SolvedIsComplete` | src/main/java/de/calltopower/sudoku/solver/Solver.java:105-121 | a successful `solve(0, 0)` fills every cell, and from clash-free clues its result passes `checkGrid` |
| `Solving.SmallBudgetFails` | src/main/java/de/calltopower/sudoku/solver/Solver.java:100-108 | a fresh solver with budget at most 82 always fails |
| `Solving.FilledWalk` | src/main/java/de/calltopower/sudoku/solver/Solver.java:105-113 | on a board filled from position p on, `solve` succeeds unchanged after exactly 82 - p calls when the budget allows them |
| `Solving.FilledBoardSolves` | src/main/java/de/calltopower/sudoku/solver/Solver.java:99-113 | a full board with budget above 82 solves unchanged in exactly 82 calls |
| `Counting.CountFilled` | src/main/java/de/calltopower/sudoku/generator/Generator.java:159 | the filled entries of a sequence are at most its length |
| `Counting.CountFilledZero` | src/main/java/de/calltopower/sudoku/generator/Generator.java:141-153 | a count of 0 means every entry is empty |
| `Counting.CountFilledFull` | src/main/java/de/calltopower/sudoku/generator/Generator.java:155-165 | a count equal to the length means every entry is filled |
| `Counting.CountFilledUpdate` | src/main/java/de/calltopower/sudoku/generator/Generator.java:159 | overwriting one entry changes the count by the change in that entry alone |
| `Counting.CountRowsBound` | src/main/java/de/calltopower/sudoku/generator/Generator.java:155-165 | rows of nine hold at most nine filled cells each, and reach that bound exactly when all cells are filled |
| `Counting.CountRowsUpdate` | src/main/java/de/calltopower/sudoku/generator/Generator.java:155-165 | replacing one row changes the count by the change in that row alone |
| `Counting.CountPut` | src/main/java/de/calltopower/sudoku/generator/Generator.java:155-165 | writing one cell moves the filled count by at most one: down when a filled cell is emptied, up when an empty one is filled |
| `Counting.Count` | src/main/java/de/calltopower/sudoku/generator/Generator.java:155-165 | the filled count of the board is at most 81 |
| `Counting.CountFull` | src/main/java/de/calltopower/sudoku/generator/Generator.java:155-165 | the filled count is 81 exactly when `isCompletelyFilled` holds |
| `Counting.CountFilledFields` | src/main/java/de/calltopower/sudoku/generator/Generator.java:155-165 | `countFilledFields()` returns the number of non-zero cells, in 0..81 |
| `Counting.BoxColumnsEmpty` | src/main/java/de/calltopower/sudoku/generator/Generator.java:141-153 | the first m box columns hold no filled cell exactly when all their cells are 0 |
| `Counting.BoxColumnsFull` | src/main/java/de/calltopower/sudoku/generator/Generator.java:141-153 | the first m box columns hold at most 3m filled cells, and exactly 3m when none of their cells is 0 |
| `Counting.BoxCount` | src/main/java/de/calltopower/sudoku/generator/Generator.java:141-153 | a box count lies in 0..9; it is 0 exactly for an empty box and 9 exactly for a full one |
| `Counting.CountFilledSmallGridAround` | src/main/java/de/calltopower/sudoku/generator/Generator.java:141-153 | `countFilledSmallGridAround(i, j)` returns the number of filled cells of the box of (i, j), in 0..9 |
| `Generation.ClearedKeepsDistinct` | src/main/java/de/calltopower/sudoku/generator/Generator.java:70-92 | emptying cells never creates a non-zero clash |
| `Generation.ClearedTrans` | src/main/java/de/calltopower/sudoku/generator/Generator.java:70-92 | emptying cells, then emptying more, is again just emptying cells |
| `Generation.ClearedCount` | src/main/java/de/calltopower/sudoku/generator/Generator.java:70-92 | emptying cells never raises the filled count |
| `Generation.FillForward` | src/main/java/de/calltopower/sudoku/generator/Generator.java:104-111 | only empty cells are written: cell (i, j) gets `numbers[i + j]`, so only the first 17 values are used and cells with equal i + j get equal digits; afterwards the board is full |
| `Generation.FillBackward` | src/main/java/de/calltopower/sudoku/generator/Generator.java:112-119 | the same, but only for cells with both indices in 1..8; row 0 and column 0 are never written |
| `Generation.ClashPersists` | src/main/java/de/calltopower/sudoku/generator/Generator.java:122-137 | a cell still holding its digit that clashes after other cells were emptied clashed before, so an `isLegal` failure seen during removal is a clash of the grid the removal started from |
| `Generation.RemoveForward` | src/main/java/de/calltopower/sudoku/generator/Generator.java:122-129 | only empties cells, and only cells that clashed with a peer in the grid it started from; afterwards no two peers hold the same non-zero value, and a clash-free board is left unchanged |
| `Generation.RemoveBackward` | src/main/java/de/calltopower/sudoku/generator/Generator.java:130-137 | only empties cells with both indices in 1..8, and only cells that clashed in the grid it started from; every filled cell it visited ends clash-free; a clash-free board is unchanged; a clash between two cells of row 0 or column 0 survives |
| `Generation.FillAndRemove` | src/main/java/de/calltopower/sudoku/generator/Generator.java:95-139 | every cell holds what the fill left in it, or is empty because it clashed with a peer right after the fill; so each cell keeps its digit, becomes empty, or was empty and gets its drawn digit; after a forward removal the board is clash-free; after a backward removal row 0 and column 0 are exactly as the fill left them and no filled cell with both indices in 1..8 clashes; a full clash-free board comes through unchanged |
| `Generation.Candidates` | src/main/java/de/calltopower/sudoku/generator/Generator.java:75 | the candidate table flags exactly the cells that are filled and have more than 2 filled cells in their box |
| `Generation.PruneVisit` | src/main/java/de/calltopower/sudoku/generator/Generator.java:75-78 | one visit of a scan: a coin is drawn exactly when the cell is a candidate, and the cell is emptied exactly when that coin is true; `nextBoolean` is not reached otherwise, by short-circuit evaluation |
| `Generation.PruneRowForward` | src/main/java/de/calltopower/sudoku/generator/Generator.java:74-78 | one row of the forward scan, columns 0 to 8: without a true coin it draws one coin per candidate of the row, all false; with one it stops at the first candidate whose coin is true, whose rank it reports |
| `Generation.PruneRowBackward` | src/main/java/de/calltopower/sudoku/generator/Generator.java:84-88 | the same for one row of the backward scan, columns 8 down to 1 |
| `Generation.PruneForward` | src/main/java/de/calltopower/sudoku/generator/Generator.java:72-80 | the forward scan draws one coin per candidate cell (filled, with more than 2 filled cells in its box) in row-major order, at most 81; if all drawn coins are false nothing changes and the number drawn is the number of candidates; otherwise exactly the candidate whose coin is the first true one is emptied, and the number drawn is its rank among the candidates plus one |
| `Generation.PruneBackward` | src/main/java/de/calltopower/sudoku/generator/Generator.java:82-90 | the same for the backward scan (rows 8 down to 1, in each row columns 8 down to 1), which draws at most 64 coins, counts candidates in that order and can empty only a cell with both indices in 1..8 |
| `Generation.PruneStep` | src/main/java/de/calltopower/sudoku/generator/Generator.java:71-91 | a pass takes the scan its first coin chooses; it empties a cell exactly when one of the coins drawn came up true, the last one drawn, and then it empties exactly the candidate of that rank in the chosen scan order, so the count drops by one; otherwise it draws one coin per candidate the scan visits and changes nothing |
| `Generation.ExtendPasses` | src/main/java/de/calltopower/sudoku/generator/Generator.java:70-92 | one more pass that empties one candidate of its scan, or nothing, extends the list of pass grids |
| `Generation.PruneLoop` | src/main/java/de/calltopower/sudoku/generator/Generator.java:70-92 | the pruning loop goes through a list of grids, one per pass drawn, each pass either changing nothing or emptying one candidate cell of the scan its coin chose (in 1..8 for the backward scan); the result is the last of them; it ends at or below `difficulty`, exactly at `difficulty` when it started above, and does nothing when it started at or below |
| `Generation.GenerateHelper` | src/main/java/de/calltopower/sudoku/generator/Generator.java:65-93 | `generate_helper` works on the grid it is given: the five rounds take it step by step through six round grids, each round as `FillAndRemove` states, so a digit of the starting grid is lost only when its cell clashed after a fill, and a backward round leaves row 0 and column 0 as its fill left them; every cell keeps that grid's digit, is empty, or holds a digit drawn for it, and a full clash-free grid is kept as it is; pruning then goes from the last round grid pass by pass as `PruneLoop` states, leaving at most `difficulty` filled cells, exactly min(difficulty, count after the rounds); when the last round removed forward, the result is clash-free |
| `Generation.NewGenerator` | src/main/java/de/calltopower/sudoku/generator/Generator.java:29-37 | a new generator has an empty grid, the given difficulty and budget, and a counter of 0 |
| `Generation.FirstRun` | src/main/java/de/calltopower/sudoku/generator/Generator.java:45 | the helper run before the loop starts from the generator's grid, is the first link of the chain of runs, and leaves at most `difficulty` filled cells |
| `Generation.Attempt` | src/main/java/de/calltopower/sudoku/generator/Generator.java:49-54 | one loop iteration: the helper runs on the generator's grid through round grids and pass grids related as `GenerateHelper` states, starting from that grid, and the answer is that of a fresh solver on the pruned result |
| `Generation.ExtendRuns` | src/main/java/de/calltopower/sudoku/generator/Generator.java:48-50 | a helper run started from the grid the last run left extends the chain of runs |
| `Generation.NextRun` | src/main/java/de/calltopower/sudoku/generator/Generator.java:48-55 | one loop iteration, run on the grid the chain of earlier runs ended in, adds the next link: a helper run from that grid, whose pruned result has at most `difficulty` filled cells and is the one the fresh solver is run on |
| `Generation.Generate` | src/main/java/de/calltopower/sudoku/generator/Generator.java:43-63 | the loop runs at most `maxNrOfTries + 1` times on the generator's own counter; the first helper run starts from the generator's grid and every later run from the grid the previous run left, each going round by round and pass by pass from there as `GenerateHelper` states, so the grid is never reset; the kept grid is the last run's pruned puzzle with at most `difficulty` filled cells; the answer is true exactly when an attempt was made, the counter is below the budget and a fresh solver on the kept grid succeeds; with a budget at most 82 it is false |
| `Generation.GeneratedHasSolution` | src/main/java/de/calltopower/sudoku/generator/Generator.java:51-56 | when the solver succeeds on the kept puzzle, its grid fills every cell and keeps every clue; every digit it adds differs from all its peers, and the solution is clash-free when the clues are |
| `Generation.PresetPuzzleHasEmptyCells` | src/main/java/de/calltopower/sudoku/util/Constants.java:16-18 | a puzzle pruned to preset 35, 28 or 22 keeps at least 46 empty cells, so it is never the completed board |

## Left out

- User interface, threads, file existence checks and file writing
  (`SudokuUI`, `GridUI`, `SplashScreen`, `Helper`, `Application`, the I/O
  half of `FileUtils`): they are presentation, concurrency or I/O.
- Logging: it has no effect on results.
- The distributions of `Random` and `Collections.shuffle` are not modelled.
  The draws come in as an oracle (`FillDraw`, `PruneDraw`, `HelperDraws`)
  constrained only by their ranges: 81 digits in 1..9, and one coin per
  candidate cell.
- Generation.PruneLoop: the source loop has no termination argument, since
  a pass may empty nothing. The model runs one supplied pass per
  iteration and returns `None`, surfaced by `Generate` as `Stalled`, when the
  passes run out. It says nothing about whether the source loop ends.
- Generation.Generate: `currNrOfTries` is an unbounded integer. The 32-bit
  wrap-around at `maxNrOfTries = Integer.MAX_VALUE`, where the loop
  condition could never fail, is not modelled.
- JavaText.ParseInt: accepts only ASCII digits. `Integer.parseInt` also
  accepts other Unicode decimal digits, which `toString` never produces.
- `Grid.field` is an `Integer[][]` that could hold `null`. Every writer in
  the core stores an `int`, so cells are plain `Int32` values.
- The per-instance object identity of `Grid` (aliasing between a grid and
  its copy) has no counterpart: grids are values, so a write to one can
  never reach another.
- `getGrid` of `Solver` and `Generator` is field access (`Solving.GetGrid`,
  `Generator.grid`) and carries no contract of its own.
- Constants.java: only `GRID_SIZE` and the presets are modelled.
  `MAX_NR_OF_TRIES` is not read by the core (the generator takes its budget
  as a constructor argument), and the other constants are UI names and
  regexes.

## Findings

| source | as written | input that shows it | evidently intended | confidence | as-written member | corrected member |
|---|---|---|---|---|---|---|
| src/main/java/de/calltopower/sudoku/solver/Solver.java:77 | the column test of `checkGridValidity` requires `at(i, k) != 0`, a cell of row i | value 5 at (0, 5) and (3, 5), every other cell 0: the scan returns true although column 5 holds 5 twice | guard on `at(k, j) != 0`, the cell being compared, so that any two equal non-zero values in a column are rejected | high (proved on the model; not executed) | `Checks.ColumnClashMissed` | `Checks.CheckGridValidityIntended` |

=== FILE: checks.dfy ===
/**
  The units of the board (rows, columns, 3x3 boxes) and the two validity
  scans of `Solver.java`: the strict `checkGrid`, for which zeros are values
  like any other, and the lenient `checkGridValidity`, which is meant to
  ignore zeros. `isLegal` of `Generator.java` is the strict scan of one cell.
 */
module Checks {
  import opened JavaText
  import opened Grids

  /** First row (or column) of the box holding row (or column) `i`. */
  function BoxStart(i: int): int
  {
    (i / 3) * 3
  }

  /** Cell (a, b) lies in the 3x3 box of cell (i, j). */
  predicate InBox(i: int, j: int, a: int, b: int) {
    BoxStart(i) <= a < BoxStart(i) + 3 && BoxStart(j) <= b < BoxStart(j) + 3
  }

  /** Two different cells of the board that share a row, a column or a box. */
  ghost predicate Peers(i: int, j: int, a: int, b: int) {
    InRange(i, j) && InRange(a, b) && (i != a || j != b) && (i == a || j == b || InBox(i, j, a, b))
  }

  lemma BoxStartRange(i: int)
    requires 0 <= i < Size
    ensures BoxStart(i) in {0, 3, 6} && BoxStart(i) <= i < BoxStart(i) + 3
  {
  }

  /** Being in the same box is symmetric. */
  lemma InBoxSymmetric(i: int, j: int, a: int, b: int)
    requires InRange(i, j) && InRange(a, b) && InBox(i, j, a, b)
    ensures InBox(a, b, i, j)
  {
    BoxStartRange(i);
    BoxStartRange(j);
    BoxStartRange(a);
    BoxStartRange(b);
  }

  lemma PeersSymmetric(i: int, j: int, a: int, b: int)
    requires Peers(i, j, a, b)
    ensures Peers(a, b, i, j)
  {
    if InBox(i, j, a, b) {
      InBoxSymmetric(i, j, a, b);
    }
  }

  /* ---------------------------------------------------------------------- */
  /* The strict scan                                                        */
  /* ---------------------------------------------------------------------- */

  /** No peer of (i, j) holds the value of (i, j); a zero counts as a value. */
  ghost predicate CellUnique(g: Grid, i: int, j: int)
    requires InRange(i, j)
  {
    forall a, b | Peers(i, j, a, b) :: g[a][b] != g[i][j]
  }

  /** Every unit holds pairwise different values, zeros included. */
  ghost predicate AllDistinct(g: Grid) {
    forall i, j, a, b | Peers(i, j, a, b) :: g[a][b] != g[i][j]
  }

  /** `isLegal(i, j)`, also the body of `checkGrid`'s scan: true exactly when
      no other cell in row i, column j or the box of (i, j) holds the same
      value, zeros included. */
  method IsLegal(g: Grid, i: int, j: int) returns (ok: bool)
    requires InRange(i, j)
    ensures ok <==> CellUnique(g, i, j)
  {
    var v := At(g, i, j);
    for k := 0 to Size
      invariant forall c | 0 <= c < k && c != j :: g[i][c] != v
    {
      if j != k && v == At(g, i, k) {
        assert Peers(i, j, i, k);
        return false;
      }
    }
    for k := 0 to Size
      invariant forall r | 0 <= r < k && r != i :: g[r][j] != v
    {
      if i != k && v == At(g, k, j) {
        assert Peers(i, j, k, j);
        return false;
      }
    }
    var rowOffset, colOffset := BoxStart(i), BoxStart(j);
    BoxStartRange(i);
    BoxStartRange(j);
    for k := 0 to 3
      invariant forall a, b | InBox(i, j, a, b) && a < rowOffset + k && (a != i || b != j) :: g[a][b] != v
    {
      for m := 0 to 3
        invariant forall a, b | InBox(i, j, a, b) && (a < rowOffset + k || (a == rowOffset + k && b < colOffset + m)) && (a != i || b != j) :: g[a][b] != v
      {
        if (rowOffset + k != i || colOffset + m != j) && At(g, rowOffset + k, colOffset + m) == v {
          assert Peers(i, j, rowOffset + k, colOffset + m);
          return false;
        }
      }
    }
    return true;
  }

  /** `checkGrid(g)`: true exactly when no two different cells sharing a
      row, a column or a box hold equal values; two empty cells in one unit
      make it false. */
  method CheckGrid(g: Grid) returns (ok: bool)
    ensures ok <==> AllDistinct(g)
  {
    for i := 0 to Size
      invariant forall a, b | 0 <= a < i && 0 <= b < Size :: CellUnique(g, a, b)
    {
      for j := 0 to Size
        invariant forall a, b | (0 <= a < i && 0 <= b < Size) || (a == i && 0 <= b < j) :: CellUnique(g, a, b)
      {
        var unique := IsLegal(g, i, j);
        if !unique {
          return false;
        }
      }
    }
    forall i, j, a, b | Peers(i, j, a, b) ensures g[a][b] != g[i][j] {
      assert CellUnique(g, i, j);
    }
    return true;
  }

  /* ---------------------------------------------------------------------- */
  /* The lenient scan, as written                                           */
  /* ---------------------------------------------------------------------- */

  /** What `checkGridValidity` tests at cell (i, j). The column test is
      guarded by cell (i, k) where cell (k, j) would be expected. */
  ghost predicate CellPassesValidity(g: Grid, i: int, j: int)
    requires InRange(i, j)
  {
    && (forall k | 0 <= k < Size && k != j && g[i][j] != 0 && g[i][k] != 0 :: g[i][j] != g[i][k])
    && (forall k | 0 <= k < Size && k != i && g[i][j] != 0 && g[i][k] != 0 :: g[i][j] != g[k][j])
    && (forall a, b | InRange(a, b) && InBox(i, j, a, b) && (a != i || b != j) && g[a][b] != 0 && g[i][j] != 0
          :: g[a][b] != g[i][j])
  }

  ghost predicate PassesValidity(g: Grid) {
    forall i, j | InRange(i, j) :: CellPassesValidity(g, i, j)
  }

  /** The per-cell body of `checkGridValidity`. */
  method CellValidity(g: Grid, i: int, j: int) returns (ok: bool)
    requires InRange(i, j)
    ensures ok <==> CellPassesValidity(g, i, j)
  {
    var v := At(g, i, j);
    for k := 0 to Size
      invariant forall c | 0 <= c < k && c != j && v != 0 && g[i][c] != 0 :: g[i][c] != v
    {
      if j != k && v != 0 && At(g, i, k) != 0 && v == At(g, i, k) {
        return false;
      }
    }
    for k := 0 to Size
      invariant forall r | 0 <= r < k && r != i && v != 0 && g[i][r] != 0 :: g[r][j] != v
    {
      if i != k && v != 0 && At(g, i, k) != 0 && v == At(g, k, j) {
        return false;
      }
    }
    var rowOffset, colOffset := BoxStart(i), BoxStart(j);
    BoxStartRange(i);
    BoxStartRange(j);
    for k := 0 to 3
      invariant forall a, b | InBox(i, j, a, b) && a < rowOffset + k && (a != i || b != j) && g[a][b] != 0 && v != 0
                  :: g[a][b] != v
    {
      for m := 0 to 3
        invariant forall a, b | InBox(i, j, a, b) && (a < rowOffset + k || (a == rowOffset + k && b < colOffset + m))
                    && (a != i || b != j) && g[a][b] != 0 && v != 0 :: g[a][b] != v
      {
        var a, b := rowOffset + k, colOffset + m;
        if (a != i || b != j) && At(g, a, b) != 0 && v != 0 && At(g, a, b) == v {
          return false;
        }
      }
    }
    return true;
  }

  /** `checkGridValidity(g)`, as written. */
  method CheckGridValidity(g: Grid) returns (ok: bool)
    ensures ok <==> PassesValidity(g)
  {
    for i := 0 to Size
      invariant forall a, b | 0 <= a < i && 0 <= b < Size :: CellPassesValidity(g, a, b)
    {
      for j := 0 to Size
        invariant forall a, b | (0 <= a < i && 0 <= b < Size) || (a == i && 0 <= b < j) :: CellPassesValidity(g, a, b)
      {
        var valid := CellValidity(g, i, j);
        if !valid {
          return false;
        }
      }
    }
    return true;
  }

  /* ---------------------------------------------------------------------- */
  /* What the lenient scan was meant to test                                */
  /* ---------------------------------------------------------------------- */

  /** No two peers hold the same non-zero value; empty cells never clash. */
  ghost predicate NonzeroDistinct(g: Grid) {
    forall i, j, a, b | Peers(i, j, a, b) && g[i][j] != 0 :: g[a][b] != g[i][j]
  }

  /** `checkGridValidity` with the column test guarded by cell (k, j). */
  method CellValidityIntended(g: Grid, i: int, j: int) returns (ok: bool)
    requires InRange(i, j)
    ensures ok <==> forall a, b | Peers(i, j, a, b) && g[i][j] != 0 :: g[a][b] != g[i][j]
  {
    var v := At(g, i, j);
    for k := 0 to Size
      invariant forall c | 0 <= c < k && c != j && v != 0 :: g[i][c] != v
    {
      if j != k && v != 0 && At(g, i, k) != 0 && v == At(g, i, k) {
        assert Peers(i, j, i, k);
        return false;
      }
    }
    for k := 0 to Size
      invariant forall r | 0 <= r < k && r != i && v != 0 :: g[r][j] != v
    {
      if i != k && v != 0 && At(g, k, j) != 0 && v == At(g, k, j) {
        assert Peers(i, j, k, j);
        return false;
      }
    }
    var rowOffset, colOffset := BoxStart(i), BoxStart(j);
    BoxStartRange(i);
    BoxStartRange(j);
    for k := 0 to 3
      invariant forall a, b | InBox(i, j, a, b) && a < rowOffset + k && (a != i || b != j) && v != 0 :: g[a][b] != v
    {
      for m := 0 to 3
        invariant forall a, b | InBox(i, j, a, b) && (a < rowOffset + k || (a == rowOffset + k && b < colOffset + m))
                    && (a != i || b != j) && v != 0 :: g[a][b] != v
      {
        var a, b := rowOffset + k, colOffset + m;
        if (a != i || b != j) && At(g, a, b) != 0 && v != 0 && At(g, a, b) == v {
          assert Peers(i, j, a, b);
          return false;
        }
      }
    }
    return true;
  }

  /** The corrected lenient scan: true exactly when no two peers hold the
      same non-zero value. */
  method CheckGridValidityIntended(g: Grid) returns (ok: bool)
    ensures ok <==> NonzeroDistinct(g)
  {
    for i := 0 to Size
      invariant forall a, b, c, d | Peers(a, b, c, d) && a < i && g[a][b] != 0 :: g[c][d] != g[a][b]
    {
      for j := 0 to Size
        invariant forall a, b, c, d | Peers(a, b, c, d) && (a < i || (a == i && b < j)) && g[a][b] != 0
                    :: g[c][d] != g[a][b]
      {
        var valid := CellValidityIntended(g, i, j);
        if !valid {
          return false;
        }
      }
    }
    return true;
  }

  /* ---------------------------------------------------------------------- */
  /* How the scans relate                                                   */
  /* ---------------------------------------------------------------------- */

  /** Whatever passes `checkGrid` passes `checkGridValidity`. */
  lemma StrictPassesValidity(g: Grid)
    requires AllDistinct(g)
    ensures PassesValidity(g)
  {
    forall i, j | InRange(i, j) ensures CellPassesValidity(g, i, j) {
      forall k | 0 <= k < Size && k != i ensures g[i][j] != g[k][j] {
        assert Peers(i, j, k, j);
      }
      forall k | 0 <= k < Size && k != j ensures g[i][j] != g[i][k] {
        assert Peers(i, j, i, k);
      }
      forall a, b | InRange(a, b) && InBox(i, j, a, b) && (a != i || b != j) ensures g[a][b] != g[i][j] {
        assert Peers(i, j, a, b);
      }
    }
  }

  /** The scan as written accepts every grid without a non-zero clash; it
      can only be more lenient than intended, never stricter. */
  lemma DistinctPassesValidity(g: Grid)
    requires NonzeroDistinct(g)
    ensures PassesValidity(g)
  {
    forall i, j | InRange(i, j) ensures CellPassesValidity(g, i, j) {
      forall k | 0 <= k < Size && k != i && g[i][j] != 0 ensures g[i][j] != g[k][j] {
        assert Peers(i, j, k, j);
      }
      forall k | 0 <= k < Size && k != j && g[i][j] != 0 ensures g[i][j] != g[i][k] {
        assert Peers(i, j, i, k);
      }
      forall a, b | InRange(a, b) && InBox(i, j, a, b) && (a != i || b != j) && g[i][j] != 0
        ensures g[a][b] != g[i][j]
      {
        assert Peers(i, j, a, b);
      }
    }
  }

  /** A repeated non-zero value in one row or one box is always caught. */
  lemma RowOrBoxClashFails(g: Grid, i: int, j: int, a: int, b: int)
    requires InRange(i, j) && InRange(a, b) && (i != a || j != b)
    requires i == a || InBox(i, j, a, b)
    requires g[i][j] != 0 && g[a][b] == g[i][j]
    ensures !PassesValidity(g)
  {
    assert !CellPassesValidity(g, i, j);
  }

  /** A repeated non-zero value at (i, j) and (k, j) is caught by the column
      test only when cell (i, k) or cell (k, i) is filled. */
  lemma GuardedColumnClashFails(g: Grid, i: int, k: int, j: int)
    requires InRange(i, j) && InRange(k, j) && i != k
    requires g[i][j] != 0 && g[k][j] == g[i][j]
    requires g[i][k] != 0 || g[k][i] != 0
    ensures !PassesValidity(g)
  {
    if g[i][k] != 0 {
      assert !CellPassesValidity(g, i, j);
    } else {
      assert !CellPassesValidity(g, k, j);
    }
  }

  /** A board holding only the value `v` at (0, 5) and (3, 5). */
  function TwoInColumnFive(v: Int32): (g: Grid)
  {
    seq(Size, r requires 0 <= r < Size =>
      seq(Size, c requires 0 <= c < Size => if c == 5 && (r == 0 || r == 3) then v else 0))
  }

  /** The column test misses a clash whose guard cells are empty: with 5 at
      (0, 5) and (3, 5) and nothing else, the scan as written passes, though
      the two cells share column 5. */
  lemma ColumnClashMissed()
    ensures PassesValidity(TwoInColumnFive(5))
    ensures !NonzeroDistinct(TwoInColumnFive(5))
  {
    var g := TwoInColumnFive(5);
    assert Peers(0, 5, 3, 5);
    forall i, j | InRange(i, j) ensures CellPassesValidity(g, i, j) {
      forall a, b | InRange(a, b) && InBox(i, j, a, b) && (a != i || b != j) && g[a][b] != 0 && g[i][j] != 0
        ensures g[a][b] != g[i][j]
      {
        BoxStartRange(i);
        BoxStartRange(a);
      }
    }
  }

  /** Empty cells never clash: the all-zero board passes the lenient scan. */
  lemma EmptyPassesValidity(g: Grid)
    requires forall i, j | InRange(i, j) :: g[i][j] == 0
    ensures PassesValidity(g) && NonzeroDistinct(g)
  {
  }

  /** Two empty cells in one row already fail the strict scan. */
  lemma TwoZerosFailStrict(g: Grid, i: int, j: int, k: int)
    requires InRange(i, j) && InRange(i, k) && j != k
    requires g[i][j] == 0 && g[i][k] == 0
    ensures !AllDistinct(g)
  {
    assert Peers(i, j, i, k);
  }
}

=== FILE: counting.dfy ===
/**
  Counting filled cells: `countFilledFields` and
  `countFilledSmallGridAround` of `Generator.java`.
 */
module Counting {
  import opened JavaText
  import opened Grids
  import opened Checks

  function Nonzero(v: int): nat
  {
    if v != 0 then 1 else 0
  }

  /** Number of non-zero entries of `s`. */
  function CountFilled(s: seq<Int32>): (n: nat)
    ensures n <= |s|
    decreases |s|
  {
    if |s| == 0 then 0 else CountFilled(s[..|s| - 1]) + Nonzero(s[|s| - 1])
  }

  /** Number of non-zero cells over all rows. */
  function CountRows(rows: seq<seq<Int32>>): nat
    decreases |rows|
  {
    if |rows| == 0 then 0 else CountRows(rows[..|rows| - 1]) + CountFilled(rows[|rows| - 1])
  }

  /** Number of filled cells of the board: at most one per cell. */
  function Count(g: Grid): (n: nat)
    ensures n <= Size * Size
  {
    CountRowsBound(g);
    CountRows(g)
  }

  lemma {:induction false} CountFilledZero(s: seq<Int32>)
    ensures CountFilled(s) == 0 <==> forall k | 0 <= k < |s| :: s[k] == 0
    decreases |s|
  {
    if |s| > 0 {
      CountFilledZero(s[..|s| - 1]);
      assert forall k | 0 <= k < |s| - 1 :: s[..|s| - 1][k] == s[k];
    }
  }

  lemma {:induction false} CountFilledFull(s: seq<Int32>)
    ensures CountFilled(s) == |s| <==> forall k | 0 <= k < |s| :: s[k] != 0
    decreases |s|
  {
    if |s| > 0 {
      CountFilledFull(s[..|s| - 1]);
      assert forall k | 0 <= k < |s| - 1 :: s[..|s| - 1][k] == s[k];
    }
  }

  lemma {:induction false} CountFilledUpdate(s: seq<Int32>, k: int, v: Int32)
    requires 0 <= k < |s|
    ensures CountFilled(s[k := v]) == CountFilled(s) - Nonzero(s[k]) + Nonzero(v)
    decreases |s|
  {
    var t := s[k := v];
    if k < |s| - 1 {
      assert t[..|t| - 1] == s[..|s| - 1][k := v];
      CountFilledUpdate(s[..|s| - 1], k, v);
    } else {
      assert t[..|t| - 1] == s[..|s| - 1];
    }
  }

  lemma {:induction false} CountRowsBound(rows: seq<seq<Int32>>)
    requires forall r | 0 <= r < |rows| :: |rows[r]| == Size
    ensures CountRows(rows) <= Size * |rows|
    ensures CountRows(rows) == Size * |rows| <==> forall r, c | 0 <= r < |rows| && 0 <= c < Size :: rows[r][c] != 0
    decreases |rows|
  {
    if |rows| > 0 {
      var init := rows[..|rows| - 1];
      var last := rows[|rows| - 1];
      CountRowsBound(init);
      CountFilledFull(last);
      assert forall r | 0 <= r < |rows| - 1 :: init[r] == rows[r];
    }
  }

  lemma {:induction false} CountRowsUpdate(rows: seq<seq<Int32>>, i: int, row: seq<Int32>)
    requires 0 <= i < |rows|
    ensures CountRows(rows[i := row]) == CountRows(rows) - CountFilled(rows[i]) + CountFilled(row)
    decreases |rows|
  {
    var t := rows[i := row];
    if i < |rows| - 1 {
      assert t[..|t| - 1] == rows[..|rows| - 1][i := row];
      CountRowsUpdate(rows[..|rows| - 1], i, row);
    } else {
      assert t[..|t| - 1] == rows[..|rows| - 1];
    }
  }

  /** Writing one cell changes the count by at most one: it drops by one
      when a filled cell is emptied and grows by one when an empty cell is
      filled. */
  lemma CountPut(g: Grid, i: int, j: int, v: Int32)
    requires InRange(i, j)
    ensures Count(Put(g, i, j, v)) == Count(g) - Nonzero(g[i][j]) + Nonzero(v)
  {
    var row: seq<Int32> := g[i][j := v];
    CountFilledUpdate(g[i], j, v);
    CountRowsUpdate(g, i, row);
    assert Put(g, i, j, v) == g[i := row];
  }

  /** The count reaches 81 exactly when no cell is empty, the condition
      `isCompletelyFilled` tests. */
  lemma CountFull(g: Grid)
    ensures Count(g) == Size * Size <==> Filled(g)
  {
    CountRowsBound(g);
  }

  /** `countFilledFields()`: the number of filled cells, in 0..81. */
  method CountFilledFields(g: Grid) returns (count: int)
    ensures count == Count(g) && 0 <= count <= Size * Size
  {
    count := 0;
    for i := 0 to Size
      invariant count == CountRows(g[..i])
    {
      for j := 0 to Size
        invariant count == CountRows(g[..i]) + CountFilled(g[i][..j])
      {
        assert g[i][..j + 1][..j] == g[i][..j];
        if At(g, i, j) != 0 {
          count := count + 1;
        }
      }
      assert g[..i + 1][..i] == g[..i];
      assert g[i][..Size] == g[i];
    }
    assert g[..Size] == g;
  }

  /** Column m (0..2) of the box of (i, j), top to bottom, read with `at`. */
  function BoxColumn(g: Grid, i: int, j: int, m: int): (vs: seq<Int32>)
    ensures |vs| == 3
  {
    var r, c := BoxStart(i), BoxStart(j) + m;
    [At(g, r, c), At(g, r + 1, c), At(g, r + 2, c)]
  }

  /** Filled cells in the first m columns of the box of (i, j). */
  function BoxColumnsCount(g: Grid, i: int, j: int, m: nat): nat
  {
    if m == 0 then 0 else BoxColumnsCount(g, i, j, m - 1) + CountFilled(BoxColumn(g, i, j, m - 1))
  }

  /** Number of filled cells of the box of (i, j): at most 9, 0 exactly
      when the box is empty and 9 exactly when it is full. */
  function BoxCount(g: Grid, i: int, j: int): (n: nat)
    requires InRange(i, j)
    ensures n <= Size
    ensures n == 0 <==> forall a, b | InBox(i, j, a, b) :: g[a][b] == 0
    ensures n == Size <==> forall a, b | InBox(i, j, a, b) :: g[a][b] != 0
  {
    BoxColumnsEmpty(g, i, j, 3);
    BoxColumnsFull(g, i, j, 3);
    BoxColumnsCount(g, i, j, 3)
  }

  /** Column m of the box holds the cells of box column BoxStart(j) + m. */
  lemma BoxColumnCells(g: Grid, i: int, j: int, m: int)
    requires InRange(i, j) && 0 <= m < 3
    ensures forall a | BoxStart(i) <= a < BoxStart(i) + 3 ::
              BoxColumn(g, i, j, m)[a - BoxStart(i)] == g[a][BoxStart(j) + m]
  {
    BoxStartRange(i);
    BoxStartRange(j);
  }

  lemma {:induction false} BoxColumnsEmpty(g: Grid, i: int, j: int, m: nat)
    requires InRange(i, j) && m <= 3
    ensures BoxColumnsCount(g, i, j, m) == 0 <==>
              forall a, b | InBox(i, j, a, b) && b < BoxStart(j) + m :: g[a][b] == 0
  {
    if m > 0 {
      BoxColumnsEmpty(g, i, j, m - 1);
      var r, c := BoxStart(i), BoxStart(j) + m - 1;
      var col := BoxColumn(g, i, j, m - 1);
      CountFilledZero(col);
      BoxColumnCells(g, i, j, m - 1);
      if BoxColumnsCount(g, i, j, m) == 0 {
        forall a, b | InBox(i, j, a, b) && b < BoxStart(j) + m ensures g[a][b] == 0 {
          if b == c {
            assert col[a - r] == g[a][b];
          }
        }
      }
      if forall a, b | InBox(i, j, a, b) && b < BoxStart(j) + m :: g[a][b] == 0 {
        forall k | 0 <= k < 3 ensures col[k] == 0 {
          assert InBox(i, j, r + k, c);
        }
      }
    }
  }

  lemma {:induction false} BoxColumnsFull(g: Grid, i: int, j: int, m: nat)
    requires InRange(i, j) && m <= 3
    ensures BoxColumnsCount(g, i, j, m) <= 3 * m
    ensures BoxColumnsCount(g, i, j, m) == 3 * m <==>
              forall a, b | InBox(i, j, a, b) && b < BoxStart(j) + m :: g[a][b] != 0
  {
    if m > 0 {
      BoxColumnsFull(g, i, j, m - 1);
      var r, c := BoxStart(i), BoxStart(j) + m - 1;
      var col := BoxColumn(g, i, j, m - 1);
      CountFilledFull(col);
      BoxColumnCells(g, i, j, m - 1);
      if forall a, b | InBox(i, j, a, b) && b < BoxStart(j) + m :: g[a][b] != 0 {
        forall k | 0 <= k < 3 ensures col[k] != 0 {
          assert InBox(i, j, r + k, c);
        }
      }
    }
  }

  /** `countFilledSmallGridAround(i, j)`: the number of filled cells in the
      box of (i, j), visited column by column. */
  method CountFilledSmallGridAround(g: Grid, i: int, j: int) returns (count: int)
    requires InRange(i, j)
    ensures count == BoxCount(g, i, j) && 0 <= count <= Size
  {
    var rowOffset, colOffset := BoxStart(i), BoxStart(j);
    count := 0;
    for m := 0 to 3
      invariant count == BoxColumnsCount(g, i, j, m)
    {
      var col := BoxColumn(g, i, j, m);
      for k := 0 to 3
        invariant count == BoxColumnsCount(g, i, j, m) + CountFilled(col[..k])
      {
        assert col[..k + 1][..k] == col[..k];
        if At(g, rowOffset + k, colOffset + m) != 0 {
          count := count + 1;
        }
      }
      assert col[..3] == col;
    }
  }
}

=== FILE: file_text.dfy ===
/**
  The text normalisation `FileUtils.readFromFile` applies to a saved grid
  before it reaches `Grid.fromString`: the file is read line by line, every
  line is trimmed and prefixed with one space, and the whole is trimmed.
  Through this normalisation a saved grid does load back cell for cell.
 */
module FileText {
  import opened JavaText
  import opened Grids

  predicate IsBreak(c: char) {
    c == '\n' || c == '\r'
  }

  predicate NoBreak(s: string) {
    forall k | 0 <= k < |s| :: !IsBreak(s[k])
  }

  /** Position of the first line terminator of `s`, or `|s|` if there is none. */
  function FirstBreak(s: string): (n: nat)
    ensures n <= |s|
    ensures forall k | 0 <= k < n :: !IsBreak(s[k])
    ensures n < |s| ==> IsBreak(s[n])
    decreases |s|
  {
    if |s| == 0 || IsBreak(s[0]) then 0 else 1 + FirstBreak(s[1..])
  }

  /** The lines `BufferedReader.readLine` hands out one after the other: a
      line ends at "\n", "\r" or "\r\n"; text after the last terminator is a
      final line when it is not empty. */
  function ReadLines(s: string): (lines: seq<string>)
    ensures forall k | 0 <= k < |lines| :: NoBreak(lines[k])
    decreases |s|
  {
    if |s| == 0 then []
    else
      var n := FirstBreak(s);
      if n == |s| then [s]
      else
        var next := if s[n] == '\r' && n + 1 < |s| && s[n + 1] == '\n' then n + 2 else n + 1;
        [s[..n]] + ReadLines(s[next..])
  }

  /** The content `readFromFile` accumulates: " " + trimmed line, per line. */
  function Accumulate(lines: seq<string>): string
    decreases |lines|
  {
    if |lines| == 0 then "" else " " + Trim(lines[0]) + Accumulate(lines[1..])
  }

  /** What `readFromFile` returns for a file whose content is `text`: one
      line of text, with neither a line terminator anywhere nor a trimmable
      character at either end. */
  function ReadFromText(text: string): (r: string)
    ensures NoBreak(r)
    ensures |r| > 0 ==> !IsTrimmed(r[0]) && !IsTrimmed(r[|r| - 1])
  {
    var lines := ReadLines(text);
    AccumulateNoBreak(lines);
    var r := Trim(Accumulate(lines));
    SliceNoBreak(Accumulate(lines), r);
    r
  }

  /** A slice of text without line terminators has none either. */
  lemma SliceNoBreak(s: string, r: string)
    requires NoBreak(s)
    requires exists a, b | 0 <= a <= b <= |s| :: r == s[a..b]
    ensures NoBreak(r)
  {
    var a, b :| 0 <= a <= b <= |s| && r == s[a..b];
    assert forall k | 0 <= k < |r| :: r[k] == s[a + k];
  }

  lemma ConcatNoBreak(a: string, b: string)
    requires NoBreak(a) && NoBreak(b)
    ensures NoBreak(a + b)
  {
    forall k | |a| <= k < |a + b| ensures !IsBreak((a + b)[k]) {
      assert (a + b)[k] == b[k - |a|];
    }
  }

  /** Trimming keeps a string free of line terminators. */
  lemma TrimNoBreak(s: string)
    requires NoBreak(s)
    ensures NoBreak(Trim(s))
  {
    SliceNoBreak(s, Trim(s));
  }

  /** Lines without terminators accumulate to text without terminators. */
  lemma {:induction false} AccumulateNoBreak(lines: seq<string>)
    requires forall k | 0 <= k < |lines| :: NoBreak(lines[k])
    ensures NoBreak(Accumulate(lines))
    decreases |lines|
  {
    if |lines| > 0 {
      var t := Trim(lines[0]);
      TrimNoBreak(lines[0]);
      assert forall k | 0 <= k < |lines[1..]| :: lines[1..][k] == lines[k + 1];
      AccumulateNoBreak(lines[1..]);
      ConcatNoBreak(" ", t);
      ConcatNoBreak(" " + t, Accumulate(lines[1..]));
    }
  }

  /* ---------------------------------------------------------------------- */
  /* Saving then loading gives the grid back                                */
  /* ---------------------------------------------------------------------- */

  function RowTokens(row: seq<Int32>): (ts: seq<string>)
    ensures |ts| == |row|
  {
    seq(|row|, j requires 0 <= j < |row| => Show(row[j]))
  }

  predicate Tokenlike(ps: seq<string>) {
    forall p | 0 <= p < |ps| :: |ps[p]| >= 1 && NoSpace(ps[p])
      && (forall k | 0 <= k < |ps[p]| :: !IsTrimmed(ps[p][k]) && !IsBreak(ps[p][k]))
  }

  lemma RowTokensTokenlike(row: seq<Int32>)
    ensures Tokenlike(RowTokens(row))
  {
    forall p | 0 <= p < |row| {
      ShowIsToken(row[p]);
    }
  }

  lemma {:induction false} RowTextJoin(row: seq<Int32>)
    requires |row| >= 1
    ensures RowText(row) == Join(RowTokens(row)) + " "
    decreases |row|
  {
    if |row| > 1 {
      assert RowTokens(row)[1..] == RowTokens(row[1..]);
      RowTextJoin(row[1..]);
    }
  }

  lemma {:induction false} RowTextNoBreak(row: seq<Int32>)
    ensures NoBreak(RowText(row))
    decreases |row|
  {
    if |row| > 0 {
      ShowIsToken(row[0]);
      RowTextNoBreak(row[1..]);
      ConcatNoBreak(Show(row[0]), " ");
      ConcatNoBreak(Show(row[0]) + " ", RowText(row[1..]));
    }
  }

  /** The first and last character of a join come from the first and last
      piece. */
  lemma {:induction false} JoinEnds(ps: seq<string>)
    requires |ps| >= 1
    requires forall p | 0 <= p < |ps| :: |ps[p]| >= 1
    ensures |Join(ps)| >= 1
    ensures Join(ps)[0] == ps[0][0]
    ensures Join(ps)[|Join(ps)| - 1] == ps[|ps| - 1][|ps[|ps| - 1]| - 1]
    decreases |ps|
  {
    if |ps| > 1 {
      JoinEnds(ps[1..]);
    }
  }

  lemma {:induction false} JoinAppend(a: seq<string>, b: seq<string>)
    requires |a| >= 1 && |b| >= 1
    ensures Join(a + b) == Join(a) + " " + Join(b)
    decreases |a|
  {
    if |a| > 1 {
      assert (a + b)[1..] == a[1..] + b;
      JoinAppend(a[1..], b);
    } else {
      assert (a + b)[1..] == b;
    }
  }

  /** The printed values of all rows, row after row. */
  function Tokens(rows: seq<seq<Int32>>): seq<string>
    decreases |rows|
  {
    if |rows| == 0 then [] else RowTokens(rows[0]) + Tokens(rows[1..])
  }

  lemma {:induction false} TokensIndex(rows: seq<seq<Int32>>)
    requires forall r | 0 <= r < |rows| :: |rows[r]| == Size
    ensures |Tokens(rows)| == Size * |rows|
    ensures forall i, j | 0 <= i < |rows| && 0 <= j < Size :: Tokens(rows)[Size * i + j] == Show(rows[i][j])
    decreases |rows|
  {
    if |rows| > 0 {
      var rest := rows[1..];
      TokensIndex(rest);
      var head, tail := RowTokens(rows[0]), Tokens(rest);
      var f := Tokens(rows);
      assert f == head + tail;
      assert |head| == Size;
      forall i, j | 0 <= i < |rows| && 0 <= j < Size
        ensures f[Size * i + j] == Show(rows[i][j])
      {
        if i > 0 {
          var p := Size * (i - 1) + j;
          assert Size * i + j == Size + p;
          assert f[Size + p] == tail[p];
          assert rest[i - 1] == rows[i];
        } else {
          assert f[j] == head[j];
        }
      }
    }
  }

  lemma TokensTokenlike(rows: seq<seq<Int32>>)
    requires forall r | 0 <= r < |rows| :: |rows[r]| == Size
    ensures Tokenlike(Tokens(rows))
  {
    TokensIndex(rows);
    var ts := Tokens(rows);
    forall p | 0 <= p < |ts|
      ensures |ts[p]| >= 1 && NoSpace(ts[p])
      ensures forall k | 0 <= k < |ts[p]| :: !IsTrimmed(ts[p][k]) && !IsBreak(ts[p][k])
    {
      var i, j := p / Size, p % Size;
      assert p == Size * i + j;
      ShowIsToken(rows[i][j]);
    }
  }

  /** A join of tokens starts and ends with a character `trim()` keeps. */
  lemma JoinTrimmable(ps: seq<string>)
    requires |ps| >= 1 && Tokenlike(ps)
    ensures |Join(ps)| > 0 && !IsTrimmed(Join(ps)[0]) && !IsTrimmed(Join(ps)[|Join(ps)| - 1])
  {
    JoinEnds(ps);
    assert !IsTrimmed(ps[0][0]);
    assert !IsTrimmed(ps[|ps| - 1][|ps[|ps| - 1]| - 1]);
  }

  /** A trimmed row text is its values joined by single spaces. */
  lemma TrimRowText(row: seq<Int32>)
    requires |row| >= 1
    ensures Trim(RowText(row)) == Join(RowTokens(row))
  {
    var j := Join(RowTokens(row));
    RowTokensTokenlike(row);
    JoinTrimmable(RowTokens(row));
    TrimDropsSpaces(j);
    RowTextJoin(row);
  }

  /** The texts of the rows, one per line. */
  function RowTexts(rows: seq<seq<Int32>>): seq<string>
    decreases |rows|
  {
    if |rows| == 0 then [] else [RowText(rows[0])] + RowTexts(rows[1..])
  }

  lemma Assoc(a: string, b: string, c: string)
    ensures a + (b + c) == (a + b) + c
  {
  }

  lemma {:induction false} AccumulateRows(rows: seq<seq<Int32>>)
    requires |rows| >= 1
    requires forall r | 0 <= r < |rows| :: |rows[r]| >= 1
    ensures Accumulate(RowTexts(rows)) == " " + Join(Tokens(rows))
    decreases |rows|
  {
    var rest := rows[1..];
    var texts := RowTexts(rows);
    var head := RowTokens(rows[0]);
    assert texts == [RowText(rows[0])] + RowTexts(rest);
    assert texts[0] == RowText(rows[0]) && texts[1..] == RowTexts(rest);
    assert Tokens(rows) == head + Tokens(rest);
    TrimRowText(rows[0]);
    assert Accumulate(texts) == " " + Join(head) + Accumulate(RowTexts(rest));
    if |rest| == 0 {
      assert RowTexts(rest) == [] && Tokens(rest) == [];
      assert Tokens(rows) == head;
    } else {
      AccumulateRows(rest);
      var tail := Tokens(rest);
      assert |tail| >= 1 by {
        assert tail == RowTokens(rest[0]) + Tokens(rest[1..]);
      }
      JoinAppend(head, tail);
      var h, t := Join(head), Join(tail);
      assert Accumulate(RowTexts(rest)) == " " + t;
      assert Join(Tokens(rows)) == h + " " + t;
      Assoc(" " + h, " ", t);
      Assoc(" ", h + " ", t);
      Assoc(" ", h, " ");
    }
  }

  lemma {:induction false} ReadLinesRows(rows: seq<seq<Int32>>)
    ensures ReadLines(RowsText(rows)) == RowTexts(rows)
    decreases |rows|
  {
    if |rows| > 0 {
      RowTextNoBreak(rows[0]);
      ReadLinesNewline(RowText(rows[0]), RowsText(rows[1..]));
      ReadLinesRows(rows[1..]);
    }
  }

  /** A line without terminators followed by "\n" is read as that line. */
  lemma ReadLinesNewline(line: string, rest: string)
    requires NoBreak(line)
    ensures ReadLines(line + "\n" + rest) == [line] + ReadLines(rest)
  {
    var s := line + "\n" + rest;
    FirstBreakAt(line, "\n" + rest);
    assert s == line + ("\n" + rest);
    assert s[..|line|] == line;
    assert s[|line| + 1..] == rest;
  }

  lemma {:induction false} FirstBreakAt(line: string, rest: string)
    requires NoBreak(line) && |rest| >= 1 && IsBreak(rest[0])
    ensures FirstBreak(line + rest) == |line|
    decreases |line|
  {
    if |line| > 0 {
      assert (line + rest)[1..] == line[1..] + rest;
      FirstBreakAt(line[1..], rest);
    } else {
      assert line + rest == rest;
    }
  }

  /** Writing a grid with `toString` and reading the file back through
      `readFromFile` gives the 81 printed values separated by single spaces. */
  lemma ReadBackText(g: Grid)
    ensures ReadFromText(ToString(g)) == Join(Tokens(g))
  {
    ReadLinesRows(g);
    AccumulateRows(g);
    TokensIndex(g);
    TokensTokenlike(g);
    JoinEnds(Tokens(g));
    TrimDropsSpaces(Join(Tokens(g)));
  }

  /** Every printed value of a grid parses back as a Java `int`. */
  lemma TokensParse(g: Grid)
    ensures |Tokens(g)| == Size * Size
    ensures forall p | 0 <= p < |Tokens(g)| :: ParseInt(Tokens(g)[p]).Some?
  {
    var tokens := Tokens(g);
    TokensIndex(g);
    forall p | 0 <= p < |tokens|
      ensures ParseInt(tokens[p]).Some?
    {
      var i, j := p / Size, p % Size;
      assert p == Size * i + j;
      ParseShow(g[i][j]);
    }
  }

  /** Those values are exactly what `fromString` needs to rebuild `g`. */
  lemma FromStringTokens(g: Grid, h: Grid)
    ensures FromString(h, Join(Tokens(g))) == (true, g)
  {
    var tokens := Tokens(g);
    TokensIndex(g);
    TokensTokenlike(g);
    SplitJoin(tokens);
    var text := Join(tokens);
    assert Split(text) == tokens;
    TokensParse(g);
    var r := FromString(h, text);
    assert r.0;
    forall i, j | InRange(i, j)
      ensures r.1[i][j] == g[i][j]
    {
      ParseShow(g[i][j]);
      assert tokens[Size * i + j] == Show(g[i][j]);
      assert Some(r.1[i][j]) == ParseInt(tokens[Size * i + j]);
    }
    SameCells(r.1, g);
  }

  /** Saving a grid and loading the file again restores every cell, whatever
      grid it is loaded into. */
  lemma SaveLoadRoundTrip(g: Grid, h: Grid)
    ensures FromString(h, ReadFromText(ToString(g))) == (true, g)
  {
    ReadBackText(g);
    FromStringTokens(g, h);
  }
}

=== FILE: generator.dfy ===
/**
  The puzzle generator of `Generator.java`. It works on one grid that
  persists across rounds: each round fills the empty cells with random digits
  and then empties the cells that clash; the rounds are followed by a
  pruning phase that empties cells one at a time until at most `difficulty`
  cells are filled, and the candidate is then handed to a fresh solver.

  The random choices are an explicit oracle: every draw the source makes is
  read from a record supplied by the caller.
 */
module Generation {
  import opened JavaText
  import opened Grids
  import opened Checks
  import opened Solving
  import opened Counting

  /** The difficulty presets: the number of cells left filled. */
  const Easy: int := 35
  const Normal: int := 28
  const Hard: int := 22

  /* ---------------------------------------------------------------------- */
  /* The random draws                                                       */
  /* ---------------------------------------------------------------------- */

  /** The draws of one `fillAndRemove` round: the 81 shuffled digits, then
      the coin choosing the forward fill, then the coin choosing the forward
      removal. */
  datatype FillDraw = FillDraw(numbers: seq<Int32>, forwardFill: bool, forwardRemove: bool)

  /** The draws of one pruning pass: the coin choosing the forward scan, and
      the coins drawn for the candidate cells in scan order. */
  datatype PruneDraw = PruneDraw(forward: bool, coins: seq<bool>)

  /** The draws of one `generate_helper` call: five rounds, then as many
      pruning passes as the caller is willing to supply. */
  datatype HelperDraws = HelperDraws(fills: seq<FillDraw>, prunes: seq<PruneDraw>)

  /** 81 values of `nextInt(9) + 1`, in any order. */
  predicate ValidFill(d: FillDraw) {
    |d.numbers| == Size * Size && forall k | 0 <= k < |d.numbers| :: 1 <= d.numbers[k] <= 9
  }

  /** A pass draws at most one coin per cell. */
  predicate ValidPrune(d: PruneDraw) {
    |d.coins| >= Size * Size
  }

  predicate ValidRun(r: HelperDraws) {
    && |r.fills| == 5
    && (forall k | 0 <= k < |r.fills| :: ValidFill(r.fills[k]))
    && (forall k | 0 <= k < |r.prunes| :: ValidPrune(r.prunes[k]))
  }

  /* ---------------------------------------------------------------------- */
  /* Facts about grids                                                      */
  /* ---------------------------------------------------------------------- */

  /** `h` arises from `g` by emptying cells only. */
  ghost predicate Cleared(g: Grid, h: Grid) {
    forall a, b | InRange(a, b) :: h[a][b] == g[a][b] || h[a][b] == 0
  }

  /** The cells the backward scans visit: both indices in 1..8. */
  predicate Inner(a: int, b: int) {
    1 <= a < Size && 1 <= b < Size
  }

  /** Two filled peers on row 0 or column 0 hold the same digit. */
  ghost predicate EdgeClash(g: Grid) {
    exists a, b, c, d | Peers(a, b, c, d) && !Inner(a, b) && !Inner(c, d) :: g[a][b] != 0 && g[c][d] == g[a][b]
  }

  /** Emptying cells never creates a clash. */
  lemma ClearedKeepsDistinct(g: Grid, h: Grid)
    requires Cleared(g, h)
    ensures NonzeroDistinct(g) ==> NonzeroDistinct(h)
  {
  }

  lemma ClearedTrans(f: Grid, g: Grid, h: Grid)
    requires Cleared(f, g) && Cleared(g, h)
    ensures Cleared(f, h)
  {
  }

  /** Emptying cells never raises the count. */
  lemma {:induction false} ClearedCount(g: Grid, h: Grid)
    requires Cleared(g, h)
    ensures Count(h) <= Count(g)
  {
    var k := Size * Size;
    var m := g;
    // Walk the cells in row-major order, emptying in m what h has emptied.
    while k > 0
      invariant 0 <= k <= Size * Size
      invariant Count(m) <= Count(g)
      invariant forall a, b | InRange(a, b) :: m[a][b] == (if Size * a + b >= k then h[a][b] else g[a][b])
    {
      k := k - 1;
      var a, b := k / Size, k % Size;
      assert Size * a + b == k;
      CountPut(m, a, b, h[a][b]);
      m := Put(m, a, b, h[a][b]);
    }
    SameCells(m, h);
  }

  /* ---------------------------------------------------------------------- */
  /* fillAndRemove                                                          */
  /* ---------------------------------------------------------------------- */

  /** The forward fill: every empty cell (i, j) receives `numbers[i + j]`. */
  method FillForward(g: Grid, numbers: seq<Int32>) returns (h: Grid)
    requires |numbers| == Size * Size && forall k | 0 <= k < |numbers| :: 1 <= numbers[k] <= 9
    ensures forall a, b | InRange(a, b) :: h[a][b] == if g[a][b] == 0 then numbers[a + b] else g[a][b]
    ensures Filled(h)
  {
    h := g;
    for i := 0 to Size
      invariant forall a, b | InRange(a, b) ::
                  h[a][b] == if a < i && g[a][b] == 0 then numbers[a + b] else g[a][b]
    {
      for j := 0 to Size
        invariant forall a, b | InRange(a, b) ::
                    h[a][b] == if (a < i || (a == i && b < j)) && g[a][b] == 0 then numbers[a + b] else g[a][b]
      {
        if At(h, i, j) == 0 {
          h := Put(h, i, j, numbers[i + j]);
        }
      }
    }
  }

  /** The backward fill: only cells with both indices in 1..8 are visited,
      so row 0 and column 0 stay as they were. */
  method FillBackward(g: Grid, numbers: seq<Int32>) returns (h: Grid)
    requires |numbers| == Size * Size && forall k | 0 <= k < |numbers| :: 1 <= numbers[k] <= 9
    ensures forall a, b | InRange(a, b) ::
              h[a][b] == if Inner(a, b) && g[a][b] == 0 then numbers[a + b] else g[a][b]
    ensures forall a, b | InRange(a, b) && Inner(a, b) :: h[a][b] != 0
  {
    h := g;
    var i := Size - 1;
    while i > 0
      invariant 0 <= i < Size
      invariant forall a, b | InRange(a, b) ::
                  h[a][b] == if a > i && Inner(a, b) && g[a][b] == 0 then numbers[a + b] else g[a][b]
    {
      var j := Size - 1;
      while j > 0
        invariant 0 <= j < Size
        invariant forall a, b | InRange(a, b) ::
                    h[a][b] == if (a > i || (a == i && b > j)) && Inner(a, b) && g[a][b] == 0 then numbers[a + b] else g[a][b]
      {
        if At(h, i, j) == 0 {
          h := Put(h, i, j, numbers[i + j]);
        }
        j := j - 1;
      }
      i := i - 1;
    }
  }

  /** A filled cell that still holds its digit of `g` and clashes after some
      cells of `g` were emptied clashed in `g` already. */
  lemma ClashPersists(g: Grid, h: Grid, i: int, j: int)
    requires Cleared(g, h) && InRange(i, j) && h[i][j] != 0 && h[i][j] == g[i][j]
    requires !CellUnique(h, i, j)
    ensures !CellUnique(g, i, j)
  {
    var a, b :| Peers(i, j, a, b) && h[a][b] == h[i][j];
    assert g[a][b] == g[i][j];
  }

  /** The forward removal: visiting every cell in row-major order, a cell
      that clashes with a peer (an empty cell with an empty peer included)
      is emptied. Afterwards no filled cell clashes, and a board without
      clashes is left as it was. */
  method RemoveForward(g: Grid) returns (h: Grid)
    ensures Cleared(g, h)
    ensures forall a, b | InRange(a, b) && h[a][b] != g[a][b] :: !CellUnique(g, a, b)
    ensures NonzeroDistinct(h)
    ensures NonzeroDistinct(g) ==> h == g
  {
    h := g;
    for i := 0 to Size
      invariant Cleared(g, h)
      invariant forall a, b | InRange(a, b) && h[a][b] != g[a][b] :: !CellUnique(g, a, b)
      invariant NonzeroDistinct(g) ==> h == g
      invariant forall a, b | InRange(a, b) && a < i && h[a][b] != 0 :: CellUnique(h, a, b)
    {
      for j := 0 to Size
        invariant Cleared(g, h)
        invariant forall a, b | InRange(a, b) && h[a][b] != g[a][b] :: !CellUnique(g, a, b)
        invariant NonzeroDistinct(g) ==> h == g
        invariant forall a, b | InRange(a, b) && (a < i || (a == i && b < j)) && h[a][b] != 0 :: CellUnique(h, a, b)
      {
        var legal := IsLegal(h, i, j);
        if !legal {
          assert NonzeroDistinct(g) ==> h[i][j] == 0;
          if h[i][j] != 0 {
            ClashPersists(g, h, i, j);
          }
          PutSame(h, i, j);
          h := Put(h, i, j, 0);
        }
      }
    }
  }

  /** The backward removal: visits only cells with both indices in 1..8, so
      row 0 and column 0 are never emptied and a clash between two of their
      cells survives. */
  method RemoveBackward(g: Grid) returns (h: Grid)
    ensures Cleared(g, h)
    ensures forall a, b | InRange(a, b) && h[a][b] != g[a][b] :: !CellUnique(g, a, b)
    ensures forall a, b | InRange(a, b) && !Inner(a, b) :: h[a][b] == g[a][b]
    ensures forall a, b | InRange(a, b) && Inner(a, b) && h[a][b] != 0 :: CellUnique(h, a, b)
    ensures NonzeroDistinct(g) ==> h == g
    ensures EdgeClash(g) ==> !NonzeroDistinct(h)
  {
    h := g;
    var i := Size - 1;
    while i > 0
      invariant 0 <= i < Size
      invariant Cleared(g, h)
      invariant forall a, b | InRange(a, b) && h[a][b] != g[a][b] :: !CellUnique(g, a, b)
      invariant NonzeroDistinct(g) ==> h == g
      invariant forall a, b | InRange(a, b) && !Inner(a, b) :: h[a][b] == g[a][b]
      invariant forall a, b | InRange(a, b) && Inner(a, b) && a > i && h[a][b] != 0 :: CellUnique(h, a, b)
    {
      var j := Size - 1;
      while j > 0
        invariant 0 <= j < Size
        invariant Cleared(g, h)
        invariant forall a, b | InRange(a, b) && h[a][b] != g[a][b] :: !CellUnique(g, a, b)
        invariant NonzeroDistinct(g) ==> h == g
        invariant forall a, b | InRange(a, b) && !Inner(a, b) :: h[a][b] == g[a][b]
        invariant forall a, b | InRange(a, b) && Inner(a, b) && (a > i || (a == i && b > j)) && h[a][b] != 0 :: CellUnique(h, a, b)
      {
        var legal := IsLegal(h, i, j);
        if !legal {
          assert NonzeroDistinct(g) ==> h[i][j] == 0;
          if h[i][j] != 0 {
            ClashPersists(g, h, i, j);
          }
          PutSame(h, i, j);
          h := Put(h, i, j, 0);
        }
        j := j - 1;
      }
      i := i - 1;
    }
  }

  /** The digit the fill of round `d` leaves in cell (a, b) of `g`: an empty
      cell the scan visits gets `numbers[a + b]`, every other cell keeps its
      value. */
  function FillCell(g: Grid, d: FillDraw, a: int, b: int): Int32
    requires InRange(a, b)
  {
    if (d.forwardFill || Inner(a, b)) && g[a][b] == 0 && a + b < |d.numbers| then d.numbers[a + b] else g[a][b]
  }

  /** The grid the fill of round `d` leaves. */
  function Filling(g: Grid, d: FillDraw): Grid
  {
    seq(Size, a requires 0 <= a < Size => seq(Size, b requires 0 <= b < Size => FillCell(g, d, a, b)))
  }

  /** One round of `fillAndRemove` takes `g` to `h`: every cell of `h` holds
      what the fill left there, or is empty because after the fill it
      clashed with a peer (zeros included, as `isLegal` compares). A
      forward removal leaves no clash; a backward one keeps row 0 and
      column 0 as the fill left them and leaves no clash at a filled cell
      it visited. */
  ghost predicate RoundStep(g: Grid, d: FillDraw, h: Grid) {
    && (forall a, b | InRange(a, b) ::
          h[a][b] == Filling(g, d)[a][b] || (h[a][b] == 0 && !CellUnique(Filling(g, d), a, b)))
    && (d.forwardRemove ==> NonzeroDistinct(h))
    && (!d.forwardRemove ==> forall a, b | InRange(a, b) && !Inner(a, b) :: h[a][b] == Filling(g, d)[a][b])
    && (!d.forwardRemove ==> forall a, b | InRange(a, b) && Inner(a, b) && h[a][b] != 0 :: CellUnique(h, a, b))
  }

  /** `fillAndRemove()`: a fill chosen by the first coin, then a removal
      chosen by the second. Every cell keeps what the fill left, or is
      emptied because it clashed after the fill; after a forward removal no
      filled cell clashes. */
  method FillAndRemove(g: Grid, d: FillDraw) returns (h: Grid)
    requires ValidFill(d)
    ensures RoundStep(g, d, h)
    ensures forall a, b | InRange(a, b) ::
              h[a][b] == g[a][b] || h[a][b] == 0 || (g[a][b] == 0 && h[a][b] == d.numbers[a + b])
    ensures d.forwardRemove ==> NonzeroDistinct(h)
    ensures Filled(g) && NonzeroDistinct(g) ==> h == g
  {
    var filled: Grid;
    if d.forwardFill {
      filled := FillForward(g, d.numbers);
    } else {
      filled := FillBackward(g, d.numbers);
    }
    SameCells(filled, Filling(g, d));
    if Filled(g) {
      SameCells(filled, g);
    }
    if d.forwardRemove {
      h := RemoveForward(filled);
    } else {
      h := RemoveBackward(filled);
    }
  }

  /* ---------------------------------------------------------------------- */
  /* The pruning phase of generate_helper                                   */
  /* ---------------------------------------------------------------------- */

  /** A cell the pruning scan may empty: filled, with more than two filled
      cells in its box. */
  predicate Candidate(g: Grid, a: int, b: int) {
    InRange(a, b) && g[a][b] != 0 && BoxCount(g, a, b) > 2
  }

  /** The candidates of `g` as a table of flags, one row per board row.
      The table is chosen by its defining property rather than built in
      place, and that property is triggered only by a cell being looked
      at, so counting flags never unfolds the box counts of other cells. */
  ghost function Candidates(g: Grid): (c: seq<seq<bool>>)
    ensures forall a, b {:trigger Candidate(g, a, b)} :: Flag(c, a, b) == Candidate(g, a, b)
  {
    var table := seq(Size, a requires 0 <= a < Size => seq(Size, b requires 0 <= b < Size => Candidate(g, a, b)));
    assert forall a, b {:trigger Candidate(g, a, b)} :: Flag(table, a, b) == Candidate(g, a, b);
    var c :| forall a, b {:trigger Candidate(g, a, b)} :: Flag(c, a, b) == Candidate(g, a, b);
    c
  }

  /** Flag (a, b) of the table `c`, false off the table. */
  ghost predicate Flag(c: seq<seq<bool>>, a: int, b: int) {
    0 <= a < |c| && 0 <= b < |c[a]| && c[a][b]
  }

  /** How many flagged cells the forward scan visits before it reaches cell
      (i, j): those of the rows above row i, and those of row i left of
      column j. `ForwardRank(c, Size, 0)` counts the whole board. */
  ghost function ForwardRank(c: seq<seq<bool>>, i: nat, j: nat): nat
    requires i <= Size && j <= Size
    decreases i, j
  {
    if j == 0 then (if i == 0 then 0 else ForwardRank(c, i - 1, Size))
    else ForwardRank(c, i, j - 1) + if Flag(c, i, j - 1) then 1 else 0
  }

  /** How many flagged cells the backward scan visits before it reaches
      cell (i, j): those of the rows 8 down to i + 1, and those of row i
      right of column j, never column 0. Row 0 is only reached as (0, 8),
      so `BackwardRank(c, 0, 8)` counts all 64 cells the scan visits. */
  ghost function BackwardRank(c: seq<seq<bool>>, i: nat, j: nat): nat
    requires i < Size && j < Size && (i > 0 || j == Size - 1)
    decreases Size - i, Size - j
  {
    if j == Size - 1 then (if i == Size - 1 then 0 else BackwardRank(c, i + 1, 0))
    else BackwardRank(c, i, j + 1) + if Flag(c, i, j + 1) then 1 else 0
  }

  /** The cells the scan in direction `forward` visits. */
  predicate Scanned(forward: bool, a: int, b: int) {
    forward || Inner(a, b)
  }

  /** How many candidates the scan in direction `forward` visits before it
      reaches the cell (a, b), which it visits. */
  ghost function ScanRank(g: Grid, forward: bool, a: int, b: int): nat
    requires InRange(a, b) && Scanned(forward, a, b)
  {
    if forward then ForwardRank(Candidates(g), a, b) else BackwardRank(Candidates(g), a, b)
  }

  /** How many candidates the scan in direction `forward` visits in all. */
  ghost function ScanTotal(g: Grid, forward: bool): nat {
    if forward then ForwardRank(Candidates(g), Size, 0) else BackwardRank(Candidates(g), 0, Size - 1)
  }

  /** One visit of either pruning scan at cell (i, j) of the board `g`,
      which the scan has not changed yet, with `used` coins drawn so far: a
      candidate, flagged in `c`, draws the next coin, and a true coin means
      the cell is emptied and the scan ends. */
  method PruneVisit(g: Grid, ghost c: seq<seq<bool>>, coins: seq<bool>, i: int, j: int, used: nat) returns (used': nat, emptied: bool)
    requires InRange(i, j) && used < |coins|
    requires forall b {:trigger Candidate(g, i, b)} :: Flag(c, i, b) == Candidate(g, i, b)
    ensures used' == used + if Flag(c, i, j) then 1 else 0
    ensures emptied <==> Flag(c, i, j) && coins[used]
  {
    assert Flag(c, i, j) == Candidate(g, i, j);
    used', emptied := used, false;
    if At(g, i, j) != 0 {
      var around := CountFilledSmallGridAround(g, i, j);
      if around > 2 {
        var coin := coins[used];
        used' := used + 1;
        emptied := coin;
      }
    }
  }

  /** Row i of the forward scan, columns 0 to 8, on a board the scan has not
      changed yet, with `used` coins drawn so far, all false: the coins the
      rows above drew. */
  method PruneRowForward(g: Grid, ghost c: seq<seq<bool>>, coins: seq<bool>, i: int, used: nat) returns (used': nat, makeBreak: bool, cb: int)
    requires forall b {:trigger Candidate(g, i, b)} :: Flag(c, i, b) == Candidate(g, i, b)
    requires 0 <= i < Size && used <= 9 * i && |coins| >= Size * Size
    requires used == ForwardRank(c, i, 0) && forall k | 0 <= k < used :: !coins[k]
    ensures used' <= 9 * i + Size
    ensures !makeBreak ==> used' == ForwardRank(c, i + 1, 0) && forall k | 0 <= k < used' :: !coins[k]
    ensures makeBreak ==> 0 <= cb < Size && Flag(c, i, cb)
    ensures makeBreak ==> used' == ForwardRank(c, i, cb) + 1 && coins[used' - 1] && forall k | 0 <= k < used' - 1 :: !coins[k]
  {
    used', makeBreak, cb := used, false, 0;
    for j := 0 to Size
      invariant used' <= 9 * i + j
      invariant !makeBreak
      invariant used' == ForwardRank(c, i, j) && forall k | 0 <= k < used' :: !coins[k]
    {
      used', makeBreak := PruneVisit(g, c, coins, i, j, used');
      if makeBreak {
        // `makeBreak` ends the scan: the loop conditions fail from here on.
        cb := j;
        return;
      }
    }
  }

  /** The forward pruning scan over all cells in row-major order. At each
      candidate it draws the next coin; the first true coin empties that
      cell and ends the scan, which `makeBreak` reports. `used` is the
      number of coins drawn: the rank of the emptied cell among the
      candidates in scan order, or the number of all candidates when no
      cell was emptied. */
  method PruneForward(g: Grid, coins: seq<bool>) returns (h: Grid, used: nat, makeBreak: bool, ghost a: int, ghost b: int)
    requires |coins| >= Size * Size
    ensures used <= Size * Size
    ensures makeBreak <==> h != g
    ensures !makeBreak ==> used == ScanTotal(g, true) && forall k | 0 <= k < used :: !coins[k]
    ensures makeBreak ==> used >= 1 && coins[used - 1] && forall k | 0 <= k < used - 1 :: !coins[k]
    ensures makeBreak ==> exists a, b | Candidate(g, a, b) && Scanned(true, a, b) ::
      h == Put(g, a, b, 0) && used == ScanRank(g, true, a, b) + 1
    ensures makeBreak ==> Candidate(g, a, b) && Scanned(true, a, b) && h == Put(g, a, b, 0) && used == ScanRank(g, true, a, b) + 1
  {
    ghost var c := Candidates(g);
    used, makeBreak := 0, false;
    var ca, cb := 0, 0;
    for i := 0 to Size
      invariant used <= 9 * i
      invariant !makeBreak
      invariant used == ForwardRank(c, i, 0) && forall k | 0 <= k < used :: !coins[k]
    {
      used, makeBreak, cb := PruneRowForward(g, c, coins, i, used);
      if makeBreak {
        ca := i;
        break;
      }
    }
    // The source empties the cell inside the loop, just before it ends.
    h := g;
    if makeBreak {
      assert Candidate(g, ca, cb);
      h := Put(g, ca, cb, 0);
      assert h[ca][cb] != g[ca][cb];
      assert Candidate(g, ca, cb) && Scanned(true, ca, cb) && used == ScanRank(g, true, ca, cb) + 1;
    }
    a, b := ca, cb;
  }

  /** Row i of the backward scan, columns 8 down to 1, on a board the scan
      has not changed yet, with `used` coins drawn so far, all false: the
      coins the rows below drew. */
  method PruneRowBackward(g: Grid, ghost c: seq<seq<bool>>, coins: seq<bool>, i: int, used: nat) returns (used': nat, makeBreak: bool, cb: int)
    requires forall b {:trigger Candidate(g, i, b)} :: Flag(c, i, b) == Candidate(g, i, b)
    requires 0 < i < Size && used + 8 * i <= 64 && |coins| >= Size * Size
    requires used == BackwardRank(c, i, Size - 1) && forall k | 0 <= k < used :: !coins[k]
    ensures used' + 8 * i <= 72
    ensures !makeBreak ==> used' == BackwardRank(c, i, 0) && forall k | 0 <= k < used' :: !coins[k]
    ensures makeBreak ==> 0 < cb < Size && Flag(c, i, cb)
    ensures makeBreak ==> used' == BackwardRank(c, i, cb) + 1 && coins[used' - 1] && forall k | 0 <= k < used' - 1 :: !coins[k]
  {
    used', makeBreak, cb := used, false, 0;
    var j := Size - 1;
    while j > 0
      invariant 0 <= j < Size && used' + 8 * i + j <= 72
      invariant !makeBreak
      invariant used' == BackwardRank(c, i, j) && forall k | 0 <= k < used' :: !coins[k]
    {
      used', makeBreak := PruneVisit(g, c, coins, i, j, used');
      if makeBreak {
        // `makeBreak` ends the scan: the loop conditions fail from here on.
        cb := j;
        return;
      }
      j := j - 1;
    }
  }

  /** The backward pruning scan: rows 8 down to 1, and in each row columns 8
      down to 1, so row 0 and column 0 are never visited. `used` is the rank
      of the emptied cell among the candidates in this order, or the number
      of all candidates the scan visits when no cell was emptied. */
  method PruneBackward(g: Grid, coins: seq<bool>) returns (h: Grid, used: nat, makeBreak: bool, ghost a: int, ghost b: int)
    requires |coins| >= Size * Size
    ensures used <= 64
    ensures makeBreak <==> h != g
    ensures !makeBreak ==> used == ScanTotal(g, false) && forall k | 0 <= k < used :: !coins[k]
    ensures makeBreak ==> used >= 1 && coins[used - 1] && forall k | 0 <= k < used - 1 :: !coins[k]
    ensures makeBreak ==> exists a, b | Candidate(g, a, b) && Scanned(false, a, b) ::
      h == Put(g, a, b, 0) && used == ScanRank(g, false, a, b) + 1
    ensures makeBreak ==> Candidate(g, a, b) && Scanned(false, a, b) && h == Put(g, a, b, 0) && used == ScanRank(g, false, a, b) + 1
  {
    ghost var c := Candidates(g);
    used, makeBreak := 0, false;
    var ca, cb := 0, 0;
    var i := Size - 1;
    while i > 0
      invariant 0 <= i < Size && used + 8 * i <= 64
      invariant !makeBreak
      invariant used == BackwardRank(c, i, Size - 1) && forall k | 0 <= k < used :: !coins[k]
    {
      used, makeBreak, cb := PruneRowBackward(g, c, coins, i, used);
      if makeBreak {
        ca := i;
        break;
      }
      i := i - 1;
    }
    // The source empties the cell inside the loop, just before it ends.
    h := g;
    if makeBreak {
      assert Candidate(g, ca, cb);
      h := Put(g, ca, cb, 0);
      assert h[ca][cb] != g[ca][cb];
      assert Candidate(g, ca, cb) && Scanned(false, ca, cb) && used == ScanRank(g, false, ca, cb) + 1;
    }
    a, b := ca, cb;
  }

  /** One pass of the pruning loop, its direction chosen by the first coin.
      It empties at most one cell, a candidate the chosen scan visits, and
      does so exactly when a coin it drew came up true, which is then the
      last coin drawn; `used` is that cell's rank among the candidates in
      scan order, or the number of all candidates the scan visits. */
  method PruneStep(g: Grid, d: PruneDraw) returns (h: Grid, used: nat, emptied: bool)
    requires ValidPrune(d)
    ensures used <= |d.coins|
    ensures Cleared(g, h)
    ensures emptied <==> h != g
    ensures !emptied <==> forall k | 0 <= k < used :: !d.coins[k]
    ensures emptied ==> used >= 1 && d.coins[used - 1] && Count(h) == Count(g) - 1
    ensures !emptied ==> used == ScanTotal(g, d.forward)
    ensures emptied ==> exists a, b | Candidate(g, a, b) && Scanned(d.forward, a, b) ::
      h == Put(g, a, b, 0) && used == ScanRank(g, d.forward, a, b) + 1
  {
    ghost var a, b;
    if d.forward {
      h, used, emptied, a, b := PruneForward(g, d.coins);
    } else {
      h, used, emptied, a, b := PruneBackward(g, d.coins);
    }
    if emptied {
      CountPut(g, a, b, 0);
    }
  }

  /** One pruning pass takes `g` to `h`: nothing changes, or one candidate
      that the scan chosen by `d` visits is emptied. */
  ghost predicate PassStep(g: Grid, d: PruneDraw, h: Grid) {
    h == g || exists a, b | Candidate(g, a, b) && Scanned(d.forward, a, b) :: h == Put(g, a, b, 0)
  }

  /** `passes` lists the grids the pruning loop goes through, pass k of
      `prunes` taking `passes[k]` to `passes[k + 1]`. */
  ghost predicate PassChain(passes: seq<Grid>, prunes: seq<PruneDraw>) {
    && 1 <= |passes| <= |prunes| + 1
    && forall k | 0 <= k < |passes| - 1 :: PassStep(passes[k], prunes[k], passes[k + 1])
  }

  /** Appending the grid of one more pass keeps the pass grids a chain. */
  lemma ExtendPasses(passes: seq<Grid>, prunes: seq<PruneDraw>, next: Grid)
    requires PassChain(passes, prunes) && |passes| <= |prunes|
    requires PassStep(passes[|passes| - 1], prunes[|passes| - 1], next)
    ensures PassChain(passes + [next], prunes)
  {
    var p' := passes + [next];
    forall k | 0 <= k < |p'| - 1
      ensures PassStep(p'[k], prunes[k], p'[k + 1])
    {
      if k < |passes| - 1 {
        assert p'[k] == passes[k] && p'[k + 1] == passes[k + 1];
      }
    }
  }

  /** The `while (countFilledFields() > difficulty)` loop, one supplied
      pass per iteration. It ends with at most `difficulty` filled cells,
      with exactly `difficulty` when it had to empty any, having only
      emptied cells. `None` means the supplied passes ran out first.
      `passes` lists the grids the loop went through, from `f` on: each
      pass empties one candidate of its scan or nothing. */
  method PruneLoop(f: Grid, difficulty: int, prunes: seq<PruneDraw>) returns (r: Option<Grid>, ghost passes: seq<Grid>)
    requires forall k | 0 <= k < |prunes| :: ValidPrune(prunes[k])
    ensures PassChain(passes, prunes) && passes[0] == f
    ensures r.Some? ==> r.value == passes[|passes| - 1]
    ensures r.Some? ==> Count(r.value) <= difficulty && Cleared(f, r.value)
    ensures r.Some? && Count(f) > difficulty ==> Count(r.value) == difficulty
    ensures Count(f) <= difficulty ==> r == Some(f)
    ensures r.None? ==> Count(f) > difficulty
  {
    var g := f;
    var n := 0;
    var count := CountFilledFields(g);
    passes := [f];
    while count > difficulty
      invariant 0 <= n <= |prunes|
      invariant |passes| == n + 1 && passes[0] == f && passes[n] == g && PassChain(passes, prunes)
      invariant count == Count(g) && Cleared(f, g)
      invariant Count(f) > difficulty ==> Count(g) >= difficulty
      invariant Count(f) <= difficulty ==> g == f
      decreases |prunes| - n
    {
      if n == |prunes| {
        return None, passes;
      }
      var h, _, _ := PruneStep(g, prunes[n]);
      ExtendPasses(passes, prunes, h);
      passes := passes + [h];
      ClearedTrans(f, g, h);
      g := h;
      n := n + 1;
      count := CountFilledFields(g);
    }
    r := Some(g);
  }

  /** Digit `v` was drawn for cell (a, b) in one of the first `n` rounds. */
  predicate Drawn(fills: seq<FillDraw>, n: int, a: int, b: int, v: int) {
    exists m | 0 <= m < n && m < |fills| :: 0 <= a + b < |fills[m].numbers| && fills[m].numbers[a + b] == v
  }

  /** One more round keeps every cell at its starting digit, empty, or at a
      digit drawn for it. */
  lemma DrawnStep(g: Grid, before: Grid, after: Grid, fills: seq<FillDraw>, k: int)
    requires 0 <= k < |fills| && |fills[k].numbers| == Size * Size
    requires forall a, b | InRange(a, b) ::
               before[a][b] == g[a][b] || before[a][b] == 0 || Drawn(fills, k, a, b, before[a][b])
    requires forall a, b | InRange(a, b) ::
               after[a][b] == before[a][b] || after[a][b] == 0 || (before[a][b] == 0 && after[a][b] == fills[k].numbers[a + b])
    ensures forall a, b | InRange(a, b) ::
              after[a][b] == g[a][b] || after[a][b] == 0 || Drawn(fills, k + 1, a, b, after[a][b])
  {
    forall a, b | InRange(a, b)
      ensures after[a][b] == g[a][b] || after[a][b] == 0 || Drawn(fills, k + 1, a, b, after[a][b])
    {
      if after[a][b] == before[a][b] {
        if Drawn(fills, k, a, b, after[a][b]) {
          var m :| 0 <= m < k && m < |fills| && 0 <= a + b < |fills[m].numbers| && fills[m].numbers[a + b] == after[a][b];
          assert m < k + 1;
        }
      } else if after[a][b] != 0 {
        assert after[a][b] == fills[k].numbers[a + b];
      }
    }
  }

  /** Appending the grid of round k keeps the round grids a chain. */
  lemma ExtendRounds(rounds: seq<Grid>, fills: seq<FillDraw>, k: int, next: Grid)
    requires 0 <= k < |fills| && |rounds| == k + 1
    requires forall m | 0 <= m < k :: RoundStep(rounds[m], fills[m], rounds[m + 1])
    requires RoundStep(rounds[k], fills[k], next)
    ensures forall m | 0 <= m < k + 1 :: RoundStep((rounds + [next])[m], fills[m], (rounds + [next])[m + 1])
  {
    var r' := rounds + [next];
    forall m | 0 <= m < k + 1
      ensures RoundStep(r'[m], fills[m], r'[m + 1])
    {
      if m < k {
        assert r'[m] == rounds[m] && r'[m + 1] == rounds[m + 1];
      }
    }
  }

  /** `generate_helper()`: five rounds of `fillAndRemove` on the grid it is
      given, then pruning. `filled` is the grid after the rounds: each of its
      cells keeps the digit of `g`, is empty, or holds a digit drawn for that
      cell, and a completed board without clashes comes through unchanged. */
  method GenerateHelper(g: Grid, difficulty: int, run: HelperDraws) returns (filled: Grid, r: Option<Grid>, ghost rounds: seq<Grid>, ghost passes: seq<Grid>)
    requires ValidRun(run)
    ensures PassChain(passes, run.prunes) && passes[0] == filled
    ensures r.Some? ==> r.value == passes[|passes| - 1]
    ensures |rounds| == 6 && rounds[0] == g && rounds[5] == filled
    ensures forall k | 0 <= k < 5 :: RoundStep(rounds[k], run.fills[k], rounds[k + 1])
    ensures forall a, b | InRange(a, b) ::
              filled[a][b] == g[a][b] || filled[a][b] == 0 || Drawn(run.fills, 5, a, b, filled[a][b])
    ensures Filled(g) && NonzeroDistinct(g) ==> filled == g
    ensures r.Some? ==> Count(r.value) <= difficulty && Cleared(filled, r.value)
    ensures r.Some? ==> Count(r.value) == if Count(filled) > difficulty then difficulty else Count(filled)
    ensures run.fills[4].forwardRemove ==> NonzeroDistinct(filled)
    ensures r.Some? && run.fills[4].forwardRemove ==> NonzeroDistinct(r.value)
  {
    filled := g;
    rounds := [g];
    for k := 0 to 5
      invariant |rounds| == k + 1 && rounds[0] == g && rounds[k] == filled
      invariant forall m | 0 <= m < k :: RoundStep(rounds[m], run.fills[m], rounds[m + 1])
      invariant forall a, b | InRange(a, b) ::
                  filled[a][b] == g[a][b] || filled[a][b] == 0 || Drawn(run.fills, k, a, b, filled[a][b])
      invariant Filled(g) && NonzeroDistinct(g) ==> filled == g
      invariant k > 0 && run.fills[k - 1].forwardRemove ==> NonzeroDistinct(filled)
    {
      var before := filled;
      filled := FillAndRemove(filled, run.fills[k]);
      DrawnStep(g, before, filled, run.fills, k);
      ExtendRounds(rounds, run.fills, k, filled);
      rounds := rounds + [filled];
    }
    r, passes := PruneLoop(filled, difficulty, run.prunes);
    if r.Some? {
      ClearedKeepsDistinct(filled, r.value);
    }
  }

  /* ---------------------------------------------------------------------- */
  /* generate()                                                             */
  /* ---------------------------------------------------------------------- */

  /** A generator: its grid, `difficulty`, `maxNrOfTries` and
      `currNrOfTries`. */
  datatype Generator = Generator(grid: Grid, difficulty: int, maxNrOfTries: int, currNrOfTries: int)

  /** What `generate()` returns together with the generator it leaves, or
      `Stalled` when the supplied draws ran out. */
  datatype GenerateResult = Stalled | Finished(generated: bool, gen: Generator)

  /** The constructor: an empty grid and no try made yet. */
  method NewGenerator(difficulty: int, maxNrOfTries: int) returns (gen: Generator)
    ensures forall i, j | InRange(i, j) :: gen.grid[i][j] == 0
    ensures gen.difficulty == difficulty && gen.maxNrOfTries == maxNrOfTries && gen.currNrOfTries == 0
  {
    var g := NewGrid();
    gen := Generator(g, difficulty, maxNrOfTries, 0);
  }

  /** One `generate_helper()` call as its contract describes it: the five
      rounds take `g` step by step through `rounds` to `rounds[5]`, and
      pruning takes `rounds[5]` through the pass grids `passes` to
      `pruned`. */
  ghost predicate HelperRun(g: Grid, difficulty: int, run: HelperDraws, rounds: seq<Grid>, passes: seq<Grid>, pruned: Grid) {
    && |rounds| == 6 && rounds[0] == g
    && PassChain(passes, run.prunes) && passes[0] == rounds[5] && passes[|passes| - 1] == pruned
    && (forall k | 0 <= k < 5 && k < |run.fills| :: RoundStep(rounds[k], run.fills[k], rounds[k + 1]))
    && (Filled(g) && NonzeroDistinct(g) ==> rounds[5] == g)
    && Cleared(rounds[5], pruned)
    && Count(pruned) == if Count(rounds[5]) > difficulty then difficulty else Count(rounds[5])
  }

  /** Run k of a sequence of helper runs starts from `starts[k]`, goes
      through the round grids `rounds[k]` and the pass grids `passes[k]`,
      and leaves `starts[k + 1]`. */
  ghost predicate Chain(starts: seq<Grid>, rounds: seq<seq<Grid>>, passes: seq<seq<Grid>>, difficulty: int, runs: seq<HelperDraws>) {
    && |starts| == |rounds| + 1 && |passes| == |rounds| && |rounds| <= |runs|
    && forall k | 0 <= k < |rounds| :: HelperRun(starts[k], difficulty, runs[k], rounds[k], passes[k], starts[k + 1])
  }

  /** Number of iterations the loop of `generate()` can make. */
  function Rounds(gen: Generator): nat
  {
    Budget(gen.maxNrOfTries + 1, gen.currNrOfTries)
  }

  /** One iteration of the loop of `generate()`: the helper runs again on
      the generator's grid, going through the round grids `rounds`, and a
      fresh solver works on a copy of the result. */
  method Attempt(g: Grid, difficulty: int, max: int, run: HelperDraws) returns (p: Option<Grid>, solved: bool, ghost rounds: seq<Grid>, ghost passes: seq<Grid>)
    requires ValidRun(run)
    ensures p.Some? ==> HelperRun(g, difficulty, run, rounds, passes, p.value)
    ensures p.Some? ==> Count(p.value) <= difficulty && solved == Solve(p.value, max, 0, 0, 0).solved
  {
    var filled;
    filled, p, rounds, passes := GenerateHelper(g, difficulty, run);
    solved := false;
    if p.Some? {
      var tmp := NewGrid();
      tmp := Copy(tmp, p.value);
      var solver := NewSolver(tmp, max);
      var outcome := SolveSession(solver, 0, 0);
      solved := outcome.0;
    }
  }

  /** The helper run `generate()` makes before its loop: the first link of
      the chain, starting from the generator's grid. */
  method FirstRun(g: Grid, difficulty: int, runs: seq<HelperDraws>) returns (p: Option<Grid>, ghost rounds: seq<Grid>, ghost passes: seq<Grid>)
    requires |runs| >= 1 && ValidRun(runs[0])
    ensures p.Some? ==> Count(p.value) <= difficulty
    ensures p.Some? ==> Chain([g, p.value], [rounds], [passes], difficulty, runs)
  {
    var filled;
    filled, p, rounds, passes := GenerateHelper(g, difficulty, runs[0]);
    if p.Some? {
      assert HelperRun(g, difficulty, runs[0], rounds, passes, p.value);
    }
  }

  /** Appending one more helper run to a chain of runs keeps it a chain. */
  lemma ExtendRuns(starts: seq<Grid>, rounds: seq<seq<Grid>>, passes: seq<seq<Grid>>, difficulty: int, runs: seq<HelperDraws>,
                    last: seq<Grid>, lastPasses: seq<Grid>, pruned: Grid)
    requires Chain(starts, rounds, passes, difficulty, runs) && |rounds| < |runs|
    requires HelperRun(starts[|starts| - 1], difficulty, runs[|rounds|], last, lastPasses, pruned)
    ensures Chain(starts + [pruned], rounds + [last], passes + [lastPasses], difficulty, runs)
  {
    var s', r', p' := starts + [pruned], rounds + [last], passes + [lastPasses];
    forall k | 0 <= k < |rounds| + 1
      ensures HelperRun(s'[k], difficulty, runs[k], r'[k], p'[k], s'[k + 1])
    {
      if k < |rounds| {
        assert s'[k] == starts[k] && s'[k + 1] == starts[k + 1] && r'[k] == rounds[k] && p'[k] == passes[k];
      }
    }
  }

  /** One iteration of the loop of `generate()` as a link of the chain: the
      chain of the first k runs ends in `g`, and the attempt on `g` with run
      k adds the next link. */
  method NextRun(g: Grid, difficulty: int, max: int, runs: seq<HelperDraws>, k: int,
                 ghost starts: seq<Grid>, ghost rounds: seq<seq<Grid>>, ghost passes: seq<seq<Grid>>)
    returns (p: Option<Grid>, solved: bool, ghost starts': seq<Grid>, ghost rounds': seq<seq<Grid>>, ghost passes': seq<seq<Grid>>)
    requires 0 <= k < |runs| && ValidRun(runs[k])
    requires Chain(starts, rounds, passes, difficulty, runs) && |rounds| == k && starts[|starts| - 1] == g
    ensures p.Some? ==> Count(p.value) <= difficulty && solved == Solve(p.value, max, 0, 0, 0).solved
    ensures p.Some? ==> starts' == starts + [p.value] && |rounds'| == k + 1
    ensures p.Some? ==> Chain(starts', rounds', passes', difficulty, runs)
  {
    ghost var last, lastPasses;
    p, solved, last, lastPasses := Attempt(g, difficulty, max, runs[k]);
    starts', rounds', passes' := starts, rounds, passes;
    if p.Some? {
      ExtendRuns(starts, rounds, passes, difficulty, runs, last, lastPasses, p.value);
      starts', rounds', passes' := starts + [p.value], rounds + [last], passes + [lastPasses];
    }
  }

  /** `generate()`: one helper run, then up to `maxNrOfTries + 1` attempts
      counted on the generator's own counter, each running the helper again
      on the same grid and a fresh solver on a copy of the result. The
      answer is true exactly when the last attempt's solver succeeded while
      the counter is still below `maxNrOfTries`; the generator keeps the
      pruned puzzle, not the solution. `starts` lists the grid each helper
      run starts from, the generator's own grid first, and `rounds` the
      round grids of each run: every run starts from the grid the previous
      one left and goes through its rounds from there, so the grid is never
      reset between attempts. */
  method Generate(gen: Generator, runs: seq<HelperDraws>) returns (r: GenerateResult, ghost starts: seq<Grid>, ghost rounds: seq<seq<Grid>>, ghost passes: seq<seq<Grid>>)
    requires |runs| >= 1 + Rounds(gen)
    requires forall k | 0 <= k < |runs| :: ValidRun(runs[k])
    ensures r.Finished? ==> r.gen.difficulty == gen.difficulty && r.gen.maxNrOfTries == gen.maxNrOfTries
    ensures r.Finished? ==> gen.currNrOfTries <= r.gen.currNrOfTries <= gen.currNrOfTries + Rounds(gen)
    ensures r.Finished? ==> Count(r.gen.grid) <= gen.difficulty
    ensures r.Finished? ==>
              (r.generated <==> r.gen.currNrOfTries > gen.currNrOfTries
                                && r.gen.currNrOfTries < gen.maxNrOfTries
                                && Solve(r.gen.grid, gen.maxNrOfTries, 0, 0, 0).solved)
    ensures r.Finished? && gen.maxNrOfTries <= Size * Size + 1 ==> !r.generated
    ensures r.Finished? ==> |starts| == r.gen.currNrOfTries - gen.currNrOfTries + 2 && |rounds| == |starts| - 1
    ensures r.Finished? ==> starts[0] == gen.grid && starts[|starts| - 1] == r.gen.grid
    ensures r.Finished? ==> Chain(starts, rounds, passes, gen.difficulty, runs)
  {
    var max, difficulty, start := gen.maxNrOfTries, gen.difficulty, gen.currNrOfTries;
    var p;
    ghost var first, firstPasses;
    p, first, firstPasses := FirstRun(gen.grid, difficulty, runs);
    if p.None? {
      return Stalled, [], [], [];
    }
    var g := p.value;
    starts, rounds, passes := [gen.grid, g], [first], [firstPasses];
    var tries := start;
    var solved, haveSolver := false, false;
    while tries <= max && !solved
      invariant start <= tries && (tries > start ==> tries <= max + 1)
      invariant haveSolver <==> tries > start
      invariant haveSolver ==> solved == Solve(g, max, 0, 0, 0).solved
      invariant !haveSolver ==> !solved
      invariant Count(g) <= difficulty
      invariant |starts| == tries - start + 2 && |rounds| == |starts| - 1
      invariant starts[0] == gen.grid && starts[|starts| - 1] == g
      invariant Chain(starts, rounds, passes, difficulty, runs)
      decreases max + 1 - tries
    {
      tries := tries + 1;
      p, solved, starts, rounds, passes := NextRun(g, difficulty, max, runs, tries - start, starts, rounds, passes);
      if p.None? {
        return Stalled, starts, rounds, passes;
      }
      g := p.value;
      haveSolver := true;
    }
    if max <= Size * Size + 1 {
      SmallBudgetFails(g, max);
    }
    var generated := solved && haveSolver && tries < max;
    r := Finished(generated, Generator(g, difficulty, max, tries));
  }

  /** A generated puzzle has a solution: the solver's grid fills every cell
      and keeps every clue; when the clues are free of clashes, so is the
      solution. */
  lemma GeneratedHasSolution(g: Grid, maxNrOfTries: int)
    requires Solve(g, maxNrOfTries, 0, 0, 0).solved
    ensures Filled(Solve(g, maxNrOfTries, 0, 0, 0).grid)
    ensures KeepsClues(g, Solve(g, maxNrOfTries, 0, 0, 0).grid)
    ensures NonzeroDistinct(g) ==> AllDistinct(Solve(g, maxNrOfTries, 0, 0, 0).grid)
    ensures NoNewClash(g, Solve(g, maxNrOfTries, 0, 0, 0).grid)
  {
    SolvedIsComplete(g, maxNrOfTries, 0);
  }

  /** A puzzle pruned to any preset keeps at least 46 empty cells, so the
      grid the generator keeps is never the completed board. */
  lemma PresetPuzzleHasEmptyCells(g: Grid, difficulty: int)
    requires difficulty in {Easy, Normal, Hard}
    requires Count(g) <= difficulty
    ensures !Filled(g)
    ensures Size * Size - Count(g) >= Size * Size - Easy
  {
    CountFull(g);
  }
}

=== FILE: grid.dfy ===
/**
  The 9x9 Sudoku grid of `Grid.java`: a matrix of Java `int`s where 0 marks
  an empty cell. Reads outside the board give -1, writes outside the board
  are refused, and the grid is saved as text by `ToString` and read back by
  `FromString`.
 */
module Grids {
  import opened JavaText

  /** Side length of the board (`Constants.GRID_SIZE`). */
  const Size: int := 9

  predicate IsGrid(rows: seq<seq<Int32>>) {
    |rows| == Size && forall r | 0 <= r < |rows| :: |rows[r]| == Size
  }

  /** A grid is always exactly 9 rows of 9 cells; cell values are not
      restricted beyond being Java `int`s. */
  type Grid = rows: seq<seq<Int32>> | IsGrid(rows) witness seq(9, _ => seq(9, _ => 0))

  predicate InRange(i: int, j: int) {
    0 <= i < Size && 0 <= j < Size
  }

  /** `at(i, j)`: the stored value on the board, -1 off it. */
  function At(g: Grid, i: int, j: int): (v: Int32)
    ensures InRange(i, j) ==> v == g[i][j]
    ensures !InRange(i, j) ==> v == -1
  {
    if InRange(i, j) then g[i][j] else -1
  }

  /** `set(i, j, v)`: writes `v` (never range-checked) into cell (i, j) and
      reports success when (i, j) is on the board; otherwise reports failure
      and leaves the grid as it was. */
  function Set(g: Grid, i: int, j: int, v: Int32): (r: (bool, Grid))
    ensures r.0 <==> InRange(i, j)
    ensures !r.0 ==> r.1 == g
    ensures r.0 ==> r.1[i][j] == v
    ensures forall a, b | InRange(a, b) && (a != i || b != j) :: r.1[a][b] == g[a][b]
  {
    if InRange(i, j) then
      var row: seq<Int32> := g[i][j := v];
      (true, g[i := row])
    else (false, g)
  }

  /** The grid after `set(i, j, v)`, its result flag dropped. */
  function Put(g: Grid, i: int, j: int, v: Int32): Grid
  {
    Set(g, i, j, v).1
  }

  /** Reading after writing sees the written value exactly at the written,
      in-range cell, and the old contents everywhere else. */
  lemma AtPut(g: Grid, i: int, j: int, v: Int32, a: int, b: int)
    ensures At(Put(g, i, j, v), a, b) == if InRange(i, j) && a == i && b == j then v else At(g, a, b)
    ensures !InRange(a, b) ==> At(Put(g, i, j, v), a, b) == -1
  {
  }

  /** Grids are equal when all their cells are. */
  lemma SameCells(a: Grid, b: Grid)
    requires forall i, j | InRange(i, j) :: a[i][j] == b[i][j]
    ensures a == b
  {
    forall i | 0 <= i < Size
      ensures a[i] == b[i]
    {
      assert forall j | 0 <= j < Size :: a[i][j] == b[i][j];
    }
  }

  /** The constructor with `initGrid`: nine rows of nine zeros. */
  method NewGrid() returns (g: Grid)
    ensures forall i, j | InRange(i, j) :: g[i][j] == 0
  {
    var rows: seq<seq<Int32>> := [];
    var i := 0;
    while i < Size
      invariant 0 <= i <= Size && |rows| == i
      invariant forall r | 0 <= r < i :: |rows[r]| == Size
      invariant forall r, c | 0 <= r < i && 0 <= c < Size :: rows[r][c] == 0
    {
      var row: seq<Int32> := [];
      var j := 0;
      while j < Size
        invariant 0 <= j <= Size && |row| == j
        invariant forall c | 0 <= c < j :: row[c] == 0
      {
        row := row + [0];
        j := j + 1;
      }
      rows := rows + [row];
      i := i + 1;
    }
    g := rows;
  }

  /** `copy(src)`: every cell of `dst` is overwritten by the same cell of
      `src`. Grids are values here, so no later write to one can reach the
      other. */
  method Copy(dst: Grid, src: Grid) returns (g: Grid)
    ensures forall i, j | InRange(i, j) :: g[i][j] == At(src, i, j)
    ensures g == src
  {
    g := dst;
    var i := 0;
    while i < Size
      invariant 0 <= i <= Size
      invariant forall a, b | InRange(a, b) && a < i :: g[a][b] == src[a][b]
    {
      var j := 0;
      while j < Size
        invariant 0 <= j <= Size
        invariant forall a, b | InRange(a, b) && (a < i || (a == i && b < j)) :: g[a][b] == src[a][b]
      {
        g := Put(g, i, j, At(src, i, j));
        j := j + 1;
      }
      i := i + 1;
    }
    assert forall a | 0 <= a < Size :: g[a] == src[a];
  }

  ghost predicate Filled(g: Grid) {
    forall i, j | InRange(i, j) :: g[i][j] != 0
  }

  /** `isCompletelyFilled()`: true exactly when no cell holds 0. */
  method IsCompletelyFilled(g: Grid) returns (b: bool)
    ensures b <==> Filled(g)
  {
    var i := 0;
    while i < Size
      invariant 0 <= i <= Size
      invariant forall a, c | InRange(a, c) && a < i :: g[a][c] != 0
    {
      var j := 0;
      while j < Size
        invariant 0 <= j <= Size
        invariant forall a, c | InRange(a, c) && (a < i || (a == i && c < j)) :: g[a][c] != 0
      {
        if At(g, i, j) == 0 {
          return false;
        }
        j := j + 1;
      }
      i := i + 1;
    }
    return true;
  }

  /* ---------------------------------------------------------------------- */
  /* Text form                                                              */
  /* ---------------------------------------------------------------------- */

  /** One row as `toString` writes it: every value followed by a space. */
  function RowText(row: seq<Int32>): string
    decreases |row|
  {
    if |row| == 0 then "" else Show(row[0]) + " " + RowText(row[1..])
  }

  /** Rows as `toString` writes them: each row's text followed by a newline. */
  function RowsText(rows: seq<seq<Int32>>): string
    decreases |rows|
  {
    if |rows| == 0 then "" else RowText(rows[0]) + "\n" + RowsText(rows[1..])
  }

  /** `toString()`: 81 values, each followed by a space, and a newline after
      every row, the last one included. */
  function ToString(g: Grid): (s: string)
    ensures SpaceCount(s) == Size * Size
    ensures |s| > 0 && s[|s| - 1] == '\n'
  {
    RowsTextSpaces(g);
    RowsText(g)
  }

  /** Parses every piece; fails as soon as one piece is not a Java `int`. */
  function ParseAll(ps: seq<string>): (r: Option<seq<Int32>>)
    ensures r.Some? <==> forall k | 0 <= k < |ps| :: ParseInt(ps[k]).Some?
    ensures r.Some? ==> |r.value| == |ps|
    ensures r.Some? ==> forall k | 0 <= k < |ps| :: r.value[k] == ParseInt(ps[k]).value
    decreases |ps|
  {
    if |ps| == 0 then Some([])
    else
      match ParseInt(ps[0])
      case None => None
      case Some(v) =>
        match ParseAll(ps[1..])
        case None => None
        case Some(vs) => Some([v] + vs)
  }

  /** Fills the board row-major from 81 values, wrapping every 9. */
  function FromValues(vs: seq<Int32>): (g: Grid)
    requires |vs| == Size * Size
  {
    seq(Size, i requires 0 <= i < Size => seq(Size, j requires 0 <= j < Size => vs[Size * i + j]))
  }

  /** `fromString(s)`: succeeds exactly when `s.split(" ")` has 81 pieces and
      each one parses as a Java `int`; then cell (i, j) holds piece 9i + j.
      On failure the grid is left as it was. */
  function FromString(g: Grid, s: string): (r: (bool, Grid))
    ensures r.0 <==> |Split(s)| == Size * Size
                     && forall k | 0 <= k < |Split(s)| :: ParseInt(Split(s)[k]).Some?
    ensures !r.0 ==> r.1 == g
    ensures r.0 ==> forall i, j | InRange(i, j) :: Some(r.1[i][j]) == ParseInt(Split(s)[Size * i + j])
  {
    var pieces := Split(s);
    if |pieces| != Size * Size then (false, g)
    else
      match ParseAll(pieces)
      case None => (false, g)
      case Some(vs) => (true, FromValues(vs))
  }

  /* ---------------------------------------------------------------------- */
  /* toString does not decode as it stands                                  */
  /* ---------------------------------------------------------------------- */

  function SpaceCount(s: string): nat
    decreases |s|
  {
    if |s| == 0 then 0 else (if s[0] == ' ' then 1 else 0) + SpaceCount(s[1..])
  }

  lemma {:induction false} SpaceCountAppend(a: string, b: string)
    ensures SpaceCount(a + b) == SpaceCount(a) + SpaceCount(b)
    decreases |a|
  {
    if |a| > 0 {
      assert (a + b)[0] == a[0];
      assert (a + b)[1..] == a[1..] + b;
      SpaceCountAppend(a[1..], b);
    } else {
      assert a + b == b;
    }
  }

  lemma {:induction false} SpaceCountNoSpace(s: string)
    requires NoSpace(s)
    ensures SpaceCount(s) == 0
    decreases |s|
  {
    if |s| > 0 {
      assert NoSpace(s[1..]) by {
        forall k | 0 <= k < |s[1..]| ensures s[1..][k] != ' ' {
          assert s[1..][k] == s[k + 1];
        }
      }
      SpaceCountNoSpace(s[1..]);
    }
  }

  /** `split(" ")` cuts a string at each of its spaces. */
  lemma {:induction false} SplitAllSize(s: string)
    ensures |SplitAll(s)| == SpaceCount(s) + 1
    ensures |s| > 0 && s[|s| - 1] != ' ' ==> SplitAll(s)[|SplitAll(s)| - 1] != ""
    decreases |s|
  {
    if |s| > 0 {
      SplitAllSize(s[1..]);
    }
  }

  lemma {:induction false} RowTextSpaces(row: seq<Int32>)
    ensures SpaceCount(RowText(row)) == |row|
    decreases |row|
  {
    if |row| > 0 {
      ShowIsToken(row[0]);
      SpaceCountNoSpace(Show(row[0]));
      SpaceCountAppend(Show(row[0]), " ");
      SpaceCountAppend(Show(row[0]) + " ", RowText(row[1..]));
      RowTextSpaces(row[1..]);
    }
  }

  lemma {:induction false} RowsTextSpaces(rows: seq<seq<Int32>>)
    requires forall r | 0 <= r < |rows| :: |rows[r]| == Size
    ensures SpaceCount(RowsText(rows)) == Size * |rows|
    ensures |rows| > 0 ==> |RowsText(rows)| > 0 && RowsText(rows)[|RowsText(rows)| - 1] == '\n'
    decreases |rows|
  {
    if |rows| > 0 {
      var head := RowText(rows[0]) + "\n";
      RowTextSpaces(rows[0]);
      SpaceCountAppend(RowText(rows[0]), "\n");
      SpaceCountAppend(head, RowsText(rows[1..]));
      RowsTextSpaces(rows[1..]);
    }
  }

  /** The saved text splits into 82 pieces, not 81: each of the 81 values is
      followed by a space, and the final newline forms a piece of its own. */
  lemma ToStringPieces(g: Grid)
    ensures |Split(ToString(g))| == Size * Size + 1
  {
    var s := ToString(g);
    RowsTextSpaces(g);
    SplitAllSize(s);
    if NoSpace(s) {
      SpaceCountNoSpace(s);
      assert false;
    }
  }

  /** Hence feeding `toString()` straight back to `fromString` is refused
      and the target grid keeps its contents. */
  lemma FromStringOfToString(g: Grid, h: Grid)
    ensures FromString(h, ToString(g)) == (false, h)
  {
    ToStringPieces(g);
  }
}

=== FILE: solver.dfy ===
/**
  The backtracking search of `Solver.java`. A solver owns a private copy of
  the grid, a try budget and a try counter that every call of `solve`
  increments and nothing resets. The search walks the board with the first
  index `i` moving fastest: (0, j), (1, j), ..., (8, j), then (0, j + 1).
 */
module Solving {
  import opened JavaText
  import opened Grids
  import opened Checks

  /** A solver session: its grid, `maxNrOfTries` and `currNrOfTries`. */
  datatype Solver = Solver(grid: Grid, maxNrOfTries: int, currNrOfTries: int)

  /** What one call of `solve` leaves behind: its answer, the solver's grid
      and the try counter. */
  datatype Outcome = Outcome(solved: bool, grid: Grid, tries: int)

  /** The constructor: the session works on its own copy of `g`, which with
      value semantics is `g` itself, and has made no try yet. */
  function NewSolver(g: Grid, maxNrOfTries: int): (s: Solver)
    ensures forall i, j | InRange(i, j) :: s.grid[i][j] == At(g, i, j)
    ensures s.maxNrOfTries == maxNrOfTries && s.currNrOfTries == 0
  {
    Solver(g, maxNrOfTries, 0)
  }

  /** `getGrid()`. */
  function GetGrid(s: Solver): Grid
  {
    s.grid
  }

  /** The three scans of `legal(i, j, v)`: row i, column j and the box of
      (i, j), each read with `at`. */
  predicate UnitsScan(g: Grid, i: int, j: int, v: int)
  {
    && (forall k | 0 <= k < Size :: At(g, i, k) != v)
    && (forall k | 0 <= k < Size :: At(g, k, j) != v)
    && (forall a, b | BoxStart(i) <= a < BoxStart(i) + 3 && BoxStart(j) <= b < BoxStart(j) + 3 :: At(g, a, b) != v)
  }

  /** The scans find `v` nowhere exactly when `v` differs from every cell
      that shares a unit with (i, j), the cell itself included. */
  lemma UnitsScanMeaning(g: Grid, i: int, j: int, v: int)
    requires InRange(i, j)
    ensures UnitsScan(g, i, j, v) <==>
              forall a, b | InRange(a, b) && (a == i || b == j || InBox(i, j, a, b)) :: g[a][b] != v
  {
    BoxStartRange(i);
    BoxStartRange(j);
    if UnitsScan(g, i, j, v) {
      forall a, b | InRange(a, b) && (a == i || b == j || InBox(i, j, a, b)) ensures g[a][b] != v {
        assert At(g, a, b) == g[a][b];
      }
    }
  }

  /** `legal(i, j, v)`: `v` is found nowhere in row i, column j or the box of
      (i, j), so it differs from every cell that shares a unit with (i, j). */
  predicate Legal(g: Grid, i: int, j: int, v: int)
    requires InRange(i, j)
    ensures Legal(g, i, j, v) <==>
              forall a, b | InRange(a, b) && (a == i || b == j || InBox(i, j, a, b)) :: g[a][b] != v
  {
    UnitsScanMeaning(g, i, j, v);
    UnitsScan(g, i, j, v)
  }

  /* ---------------------------------------------------------------------- */
  /* Facts the search is judged by                                          */
  /* ---------------------------------------------------------------------- */

  /** `h` agrees with `g` on every filled cell of `g`, and holds a digit
      1..9 wherever it differs from `g`. */
  ghost predicate KeepsClues(g: Grid, h: Grid) {
    forall a, b | InRange(a, b) :: h[a][b] == g[a][b] || (g[a][b] == 0 && 1 <= h[a][b] <= 9)
  }

  /** Every cell at or after position `p` of the search order is filled;
      cell (a, b) has position 9b + a. */
  ghost predicate FilledFrom(h: Grid, p: int) {
    forall a, b | InRange(a, b) && Size * b + a >= p :: h[a][b] != 0
  }

  /** Every clash of `h`, two peers holding the same non-zero value, is
      between two cells that were already filled in `g`: no value `h` adds
      repeats a peer. */
  ghost predicate NoNewClash(g: Grid, h: Grid) {
    forall a, b, c, d | Peers(a, b, c, d) && h[a][b] != 0 && h[c][d] == h[a][b] :: g[a][b] != 0 && g[c][d] != 0
  }

  /** Tries left before the budget check fails. */
  function Budget(maxNrOfTries: int, tries: int): nat
  {
    if maxNrOfTries > tries then maxNrOfTries - tries else 0
  }

  lemma PutSame(g: Grid, i: int, j: int)
    requires InRange(i, j)
    ensures Put(g, i, j, g[i][j]) == g
  {
    SameCells(Put(g, i, j, g[i][j]), g);
  }

  lemma PutPut(g: Grid, i: int, j: int, v: Int32, w: Int32)
    requires InRange(i, j)
    ensures Put(Put(g, i, j, v), i, j, w) == Put(g, i, j, w)
  {
    SameCells(Put(Put(g, i, j, v), i, j, w), Put(g, i, j, w));
  }

  /** Emptying a cell never creates a clash. */
  lemma ClearKeepsDistinct(g: Grid, i: int, j: int)
    requires InRange(i, j)
    ensures NonzeroDistinct(g) ==> NonzeroDistinct(Put(g, i, j, 0))
  {
  }

  /** Placing a legal value never creates a clash. */
  lemma PlaceKeepsDistinct(g: Grid, i: int, j: int, v: Int32)
    requires InRange(i, j) && Legal(g, i, j, v)
    ensures NonzeroDistinct(g) ==> NonzeroDistinct(Put(g, i, j, v))
  {
    if !NonzeroDistinct(g) {
      return;
    }
    var h := Put(g, i, j, v);
    forall a, b, c, d | Peers(a, b, c, d) && h[a][b] != 0 ensures h[c][d] != h[a][b] {
      if a == i && b == j {
        assert h[c][d] == g[c][d];
      } else if c == i && d == j {
        PeersSymmetric(a, b, c, d);
        assert h[a][b] == g[a][b];
      }
    }
  }

  /** Writing a legal value into a cell adds no clash. */
  lemma PlaceNoNewClash(g: Grid, i: int, j: int, v: Int32)
    requires InRange(i, j) && Legal(g, i, j, v)
    ensures NoNewClash(Put(g, i, j, 0), Put(g, i, j, v))
  {
    var z, h := Put(g, i, j, 0), Put(g, i, j, v);
    forall a, b, c, d | Peers(a, b, c, d) && h[a][b] != 0 && h[c][d] == h[a][b]
      ensures z[a][b] != 0 && z[c][d] != 0
    {
      PeersSymmetric(a, b, c, d);
    }
  }

  /** A search step that keeps the clues of the grid before it adds no
      clash on top of the clashes that grid had. */
  lemma NoNewClashTrans(f: Grid, g: Grid, h: Grid)
    requires NoNewClash(f, g) && NoNewClash(g, h) && KeepsClues(g, h)
    ensures NoNewClash(f, h)
  {
  }

  /* ---------------------------------------------------------------------- */
  /* solve(i, j)                                                            */
  /* ---------------------------------------------------------------------- */

  /** `solve(i, j)` on grid `g` with counter `tries`. The counter is bumped
      first and the call gives up once it reaches the budget; `i == 9` wraps
      to the top of the next column, and wrapping past the last column
      means every cell is filled. */
  function Solve(g: Grid, maxNrOfTries: int, tries: int, i: int, j: int): (r: Outcome)
    ensures r.tries > tries
    ensures !r.solved ==> r.grid == g
    ensures KeepsClues(g, r.grid)
    ensures NonzeroDistinct(g) ==> NonzeroDistinct(r.grid)
    ensures NoNewClash(g, r.grid)
    ensures r.solved ==> r.tries < maxNrOfTries
    ensures r.solved && 0 <= i <= Size && 0 <= j < Size ==>
              FilledFrom(r.grid, Size * j + i) && r.tries >= tries + Size * Size + 1 - (Size * j + i)
    decreases Budget(maxNrOfTries, tries), 0
  {
    var t := tries + 1;
    if t >= maxNrOfTries then Outcome(false, g, t)
    else
      var wraps := i == Size;
      var i', j' := if wraps then 0 else i, if wraps then j + 1 else j;
      if wraps && j' == Size then Outcome(true, g, t)
      else if At(g, i', j') != 0 then Solve(g, maxNrOfTries, t, i' + 1, j')
      else
        PutSame(g, i', j');
        TryValues(g, maxNrOfTries, t, i', j', 1)
  }

  /** The candidate loop of `solve` at empty cell (i, j), from candidate
      `val` on. The cell holds 0 or the last candidate tried, which is below
      `val`; when no candidate completes the board the cell is reset to 0. */
  function TryValues(g: Grid, maxNrOfTries: int, t: int, i: int, j: int, val: int): (r: Outcome)
    requires InRange(i, j) && 1 <= val <= Size + 1
    requires g[i][j] == 0 || 1 <= g[i][j] < val
    ensures r.tries >= t
    ensures !r.solved ==> r.grid == Put(g, i, j, 0)
    ensures KeepsClues(Put(g, i, j, 0), r.grid)
    ensures NonzeroDistinct(g) ==> NonzeroDistinct(r.grid)
    ensures NoNewClash(Put(g, i, j, 0), r.grid)
    ensures r.solved ==> r.tries < maxNrOfTries
    ensures r.solved ==> FilledFrom(r.grid, Size * j + i) && r.tries >= t + Size * Size - (Size * j + i)
    decreases Budget(maxNrOfTries, t), Size + 2 - val
  {
    if val > Size then
      ClearKeepsDistinct(g, i, j);
      Outcome(false, Put(g, i, j, 0), t)
    else if Legal(g, i, j, val) then
      var placed := Put(g, i, j, val);
      var r := Solve(placed, maxNrOfTries, t, i + 1, j);
      PlaceKeepsDistinct(g, i, j, val);
      PlaceNoNewClash(g, i, j, val);
      NoNewClashTrans(Put(g, i, j, 0), placed, r.grid);
      if r.solved then r
      else
        PutPut(g, i, j, val, 0);
        TryValues(r.grid, maxNrOfTries, r.tries, i, j, val + 1)
    else
      TryValues(g, maxNrOfTries, t, i, j, val + 1)
  }

  /** `solve(i, j)` on a session: only the session's own grid and counter
      change, and a failed call leaves the grid as it was. */
  function SolveSession(s: Solver, i: int, j: int): (r: (bool, Solver))
    ensures r.1.maxNrOfTries == s.maxNrOfTries && r.1.currNrOfTries > s.currNrOfTries
    ensures !r.0 ==> r.1.grid == s.grid
    ensures KeepsClues(s.grid, r.1.grid)
  {
    var o := Solve(s.grid, s.maxNrOfTries, s.currNrOfTries, i, j);
    (o.solved, Solver(o.grid, s.maxNrOfTries, o.tries))
  }

  /* ---------------------------------------------------------------------- */
  /* What a whole search promises                                           */
  /* ---------------------------------------------------------------------- */

  /** A successful `solve(0, 0)` fills every cell, keeps every clue, and if
      the clues were free of clashes the result passes `checkGrid`. */
  lemma SolvedIsComplete(g: Grid, maxNrOfTries: int, tries: int)
    requires Solve(g, maxNrOfTries, tries, 0, 0).solved
    ensures Filled(Solve(g, maxNrOfTries, tries, 0, 0).grid)
    ensures NonzeroDistinct(g) ==> AllDistinct(Solve(g, maxNrOfTries, tries, 0, 0).grid)
  {
    var h := Solve(g, maxNrOfTries, tries, 0, 0).grid;
    assert FilledFrom(h, 0);
    assert Filled(h);
  }

  /** A successful `solve(0, 0)` makes at least 82 calls, one per cell plus
      the final wrap, so a fresh solver whose budget is at most 82 always
      fails, whatever the grid. */
  lemma SmallBudgetFails(g: Grid, maxNrOfTries: int)
    requires maxNrOfTries <= Size * Size + 1
    ensures !Solve(g, maxNrOfTries, 0, 0, 0).solved
  {
  }

  /** On a board filled from position p(i, j) = 9j + i on, the search just
      walks to the end: it succeeds with the grid unchanged after exactly
      82 - p calls, provided the budget allows them. */
  lemma {:induction false} FilledWalk(g: Grid, maxNrOfTries: int, tries: int, i: int, j: int)
    requires 0 <= i <= Size && 0 <= j < Size
    requires FilledFrom(g, Size * j + i)
    requires tries + Size * Size + 1 - (Size * j + i) < maxNrOfTries
    ensures Solve(g, maxNrOfTries, tries, i, j) == Outcome(true, g, tries + Size * Size + 1 - (Size * j + i))
    decreases Size * Size - (Size * j + i)
  {
    if i == Size && j + 1 < Size {
      assert g[0][j + 1] != 0;
      FilledWalk(g, maxNrOfTries, tries + 1, 1, j + 1);
    } else if i < Size {
      assert g[i][j] != 0;
      FilledWalk(g, maxNrOfTries, tries + 1, i + 1, j);
    }
  }

  /** Solving a completely filled board from (0, 0) with a budget above 82
      succeeds and changes nothing. */
  lemma FilledBoardSolves(g: Grid, maxNrOfTries: int)
    requires Filled(g) && maxNrOfTries > Size * Size + 1
    ensures Solve(g, maxNrOfTries, 0, 0, 0) == Outcome(true, g, Size * Size + 1)
  {
    FilledWalk(g, maxNrOfTries, 0, 0, 0);
  }
}

=== FILE: text.dfy ===
/**
  The handful of java.lang.String / Integer operations the Sudoku grid codec
  relies on: `split(" ")`, `trim()`, `Integer.parseInt` and
  `Integer.toString`, written out over `seq<char>`.
 */
module JavaText {

  /** The range of a Java `int`. */
  type Int32 = x: int | -0x8000_0000 <= x < 0x8000_0000

  datatype Option<+T> = None | Some(value: T)

  /* ---------------------------------------------------------------------- */
  /* Splitting on a single space                                            */
  /* ---------------------------------------------------------------------- */

  /** Glues pieces back together with one space between neighbours. */
  function Join(pieces: seq<string>): string
    requires |pieces| >= 1
    decreases |pieces|
  {
    if |pieces| == 1 then pieces[0] else pieces[0] + " " + Join(pieces[1..])
  }

  predicate NoSpace(s: string) {
    forall k | 0 <= k < |s| :: s[k] != ' '
  }

  /** Every maximal space-free run of `s`, empty ones included: a string with
      n spaces yields n + 1 pieces, and joining them again gives back `s`. */
  function SplitAll(s: string): (r: seq<string>)
    ensures |r| >= 1
    ensures forall p | 0 <= p < |r| :: NoSpace(r[p])
    ensures Join(r) == s
    decreases |s|
  {
    if |s| == 0 then [""]
    else if s[0] == ' ' then [""] + SplitAll(s[1..])
    else
      var rest := SplitAll(s[1..]);
      [[s[0]] + rest[0]] + rest[1..]
  }

  /** Drops empty strings from the end, as `split` with limit 0 does. */
  function DropTrailingEmpty(ps: seq<string>): (r: seq<string>)
    ensures |r| <= |ps| && r == ps[..|r|]
    ensures |r| > 0 ==> r[|r| - 1] != ""
    ensures forall k | |r| <= k < |ps| :: ps[k] == ""
    decreases |ps|
  {
    if |ps| == 0 then []
    else if ps[|ps| - 1] == "" then DropTrailingEmpty(ps[..|ps| - 1])
    else ps
  }

  /** `s.split(" ")`: when no space occurs the whole string is the only piece
      (even the empty string); otherwise every piece is kept except the
      empty ones at the end. A leading empty piece is kept. */
  function Split(s: string): (r: seq<string>)
    ensures forall p | 0 <= p < |r| :: NoSpace(r[p])
    ensures NoSpace(s) ==> r == [s]
    ensures !NoSpace(s) ==> |r| <= |SplitAll(s)| && r == SplitAll(s)[..|r|] && forall k | |r| <= k < |SplitAll(s)| :: SplitAll(s)[k] == ""
    ensures !NoSpace(s) && |r| > 0 ==> r[|r| - 1] != ""
  {
    if NoSpace(s) then [s] else DropTrailingEmpty(SplitAll(s))
  }

  /** Splitting is the inverse of joining, for space-free pieces. */
  lemma {:induction false} SplitAllJoin(ps: seq<string>)
    requires |ps| >= 1
    requires forall p | 0 <= p < |ps| :: NoSpace(ps[p])
    ensures SplitAll(Join(ps)) == ps
    decreases |ps|, |ps[0]|
  {
    if |ps| == 1 {
      SplitAllNoSpace(ps[0]);
    } else if |ps[0]| == 0 {
      var s := Join(ps);
      assert s == " " + Join(ps[1..]);
      assert s[1..] == Join(ps[1..]);
      SplitAllJoin(ps[1..]);
      assert ps == [""] + ps[1..];
    } else {
      var s := Join(ps);
      var c := ps[0][0];
      var ps' := [ps[0][1..]] + ps[1..];
      assert Join(ps') == ps[0][1..] + " " + Join(ps[1..]);
      assert s == [c] + Join(ps');
      assert s[1..] == Join(ps');
      assert NoSpace(ps'[0]) by {
        forall k | 0 <= k < |ps'[0]| ensures ps'[0][k] != ' ' {
          assert ps'[0][k] == ps[0][k + 1];
        }
      }
      assert forall p | 1 <= p < |ps'| :: ps'[p] == ps[p];
      SplitAllJoin(ps');
      assert [c] + ps'[0] == ps[0];
      assert ps == [[c] + ps'[0]] + ps'[1..];
    }
  }

  lemma {:induction false} SplitAllNoSpace(s: string)
    requires NoSpace(s)
    ensures SplitAll(s) == [s]
    decreases |s|
  {
    if |s| > 0 {
      assert NoSpace(s[1..]) by {
        forall k | 0 <= k < |s[1..]| ensures s[1..][k] != ' ' {
          assert s[1..][k] == s[k + 1];
        }
      }
      SplitAllNoSpace(s[1..]);
      assert [s[0]] + s[1..] == s;
    }
  }

  /** Whenever the pieces are space-free and, when there are several, the
      last one is not empty, `split(" ")` hands back exactly those pieces. */
  lemma SplitJoin(ps: seq<string>)
    requires |ps| >= 1
    requires forall p | 0 <= p < |ps| :: NoSpace(ps[p])
    requires |ps| == 1 || ps[|ps| - 1] != ""
    ensures Split(Join(ps)) == ps
  {
    if |ps| == 1 {
      return;
    }
    var s := Join(ps);
    assert s == ps[0] + " " + Join(ps[1..]);
    assert s[|ps[0]|] == ' ';
    SplitAllJoin(ps);
  }

  /* ---------------------------------------------------------------------- */
  /* trim()                                                                 */
  /* ---------------------------------------------------------------------- */

  /** `String.trim` removes every character whose code is at most U+0020. */
  predicate IsTrimmed(c: char) {
    c <= ' '
  }

  function TrimStart(s: string): (r: string)
    ensures |r| <= |s| && r == s[|s| - |r|..]
    ensures forall k | 0 <= k < |s| - |r| :: IsTrimmed(s[k])
    ensures |r| > 0 ==> !IsTrimmed(r[0])
    decreases |s|
  {
    if |s| > 0 && IsTrimmed(s[0]) then TrimStart(s[1..]) else s
  }

  function TrimEnd(s: string): (r: string)
    ensures |r| <= |s| && r == s[..|r|]
    ensures forall k | |r| <= k < |s| :: IsTrimmed(s[k])
    ensures |r| > 0 ==> !IsTrimmed(r[|r| - 1])
    decreases |s|
  {
    if |s| > 0 && IsTrimmed(s[|s| - 1]) then TrimEnd(s[..|s| - 1]) else s
  }

  /** `s.trim()`: the longest infix of `s` that neither starts nor ends with
      a character at most U+0020, reached by dropping only such characters. */
  function Trim(s: string): (r: string)
    ensures exists a, b | 0 <= a <= b <= |s| ::
              && r == s[a..b]
              && (forall k | 0 <= k < a :: IsTrimmed(s[k]))
              && (forall k | b <= k < |s| :: IsTrimmed(s[k]))
    ensures |r| > 0 ==> !IsTrimmed(r[0]) && !IsTrimmed(r[|r| - 1])
  {
    var t := TrimStart(s);
    var r := TrimEnd(t);
    var a := |s| - |t|;
    assert r == s[a..a + |r|];
    assert |r| > 0 ==> r[0] == t[0];
    r
  }

  lemma TrimUntouched(s: string)
    requires |s| > 0 && !IsTrimmed(s[0]) && !IsTrimmed(s[|s| - 1])
    ensures Trim(s) == s
  {
  }

  lemma TrimDropsSpaces(s: string)
    requires |s| > 0 && !IsTrimmed(s[0]) && !IsTrimmed(s[|s| - 1])
    ensures Trim(s + " ") == s && Trim(" " + s) == s
  {
    assert (s + " ")[..|s|] == s;
    assert (" " + s)[1..] == s;
  }

  /* ---------------------------------------------------------------------- */
  /* Integer.toString and Integer.parseInt                                  */
  /* ---------------------------------------------------------------------- */

  predicate IsDigit(c: char) {
    '0' <= c <= '9'
  }

  function DigitChar(d: int): (c: char)
    requires 0 <= d < 10
    ensures IsDigit(c)
  {
    ['0', '1', '2', '3', '4', '5', '6', '7', '8', '9'][d]
  }

  function DigitValue(c: char): (d: nat)
    requires IsDigit(c)
    ensures d < 10
  {
    c as int - '0' as int
  }

  predicate AllDigits(s: string) {
    forall k | 0 <= k < |s| :: IsDigit(s[k])
  }

  /** The decimal value of a digit string (most significant digit first). */
  function DigitsValue(s: string): nat
    requires AllDigits(s)
    decreases |s|
  {
    if |s| == 0 then 0 else 10 * DigitsValue(s[..|s| - 1]) + DigitValue(s[|s| - 1])
  }

  /** Decimal digits of `n` without leading zeros. */
  function NatDigits(n: nat): (r: string)
    ensures |r| >= 1 && AllDigits(r)
    ensures n > 0 ==> r[0] != '0'
    decreases n
  {
    if n < 10 then [DigitChar(n)] else NatDigits(n / 10) + [DigitChar(n % 10)]
  }

  lemma {:induction false} DigitsValueNatDigits(n: nat)
    ensures DigitsValue(NatDigits(n)) == n
    decreases n
  {
    if n >= 10 {
      var s := NatDigits(n);
      assert s[..|s| - 1] == NatDigits(n / 10);
      DigitsValueNatDigits(n / 10);
    }
  }

  /** `Integer.toString(x)`: optional minus sign, then the digits. */
  function Show(x: int): (r: string)
    ensures |r| >= 1
    ensures x >= 0 ==> AllDigits(r)
    ensures x < 0 ==> |r| >= 2 && r[0] == '-' && AllDigits(r[1..])
    ensures x != 0 ==> r[if x < 0 then 1 else 0] != '0'
    ensures x == 0 ==> |r| == 1 && r[0] == '0'
  {
    if x < 0 then
      assert ("-" + NatDigits(-x))[1..] == NatDigits(-x);
      "-" + NatDigits(-x)
    else NatDigits(x)
  }

  /** `Integer.parseInt(s)`: an optional `+` or `-`, then at least one
      decimal digit, and the value must fit a Java `int`; anything else is a
      NumberFormatException, modelled as `None`. */
  function ParseInt(s: string): (r: Option<Int32>)
    ensures r.Some? ==> |s| >= 1 && IsDigit(s[|s| - 1])
    ensures r.Some? ==> (IsDigit(s[0]) || s[0] == '-' || s[0] == '+') && forall k | 1 <= k < |s| :: IsDigit(s[k])
    ensures |s| >= 1 && AllDigits(s) ==>
              r == if DigitsValue(s) < 0x8000_0000 then Some(DigitsValue(s)) else None
    ensures |s| >= 2 && s[0] == '+' && AllDigits(s[1..]) ==>
              r == if DigitsValue(s[1..]) < 0x8000_0000 then Some(DigitsValue(s[1..])) else None
    ensures |s| >= 2 && s[0] == '-' && AllDigits(s[1..]) ==>
              r == if DigitsValue(s[1..]) <= 0x8000_0000 then Some(0 - DigitsValue(s[1..])) else None
  {
    if |s| == 0 then None
    else
      var negative := s[0] == '-';
      var signed := s[0] == '-' || s[0] == '+';
      var body := if signed then s[1..] else s;
      if |body| == 0 || !AllDigits(body) then None
      else
        var magnitude: int := DigitsValue(body);
        var v := if negative then -magnitude else magnitude;
        if -0x8000_0000 <= v < 0x8000_0000 then Some(v) else None
  }

  /** Printing a Java `int` and parsing it again gives it back. */
  lemma ParseShow(x: Int32)
    ensures ParseInt(Show(x)) == Some(x)
  {
    var n: int := x;
    if n < 0 {
      var d := NatDigits(-n);
      assert Show(n) == "-" + d;
      assert ("-" + d)[0] == '-';
      assert ("-" + d)[1..] == d;
      DigitsValueNatDigits(-n);
    } else {
      var d := NatDigits(n);
      assert Show(n) == d;
      assert d[0] != '-' && d[0] != '+' by {
        assert IsDigit(d[0]);
      }
      DigitsValueNatDigits(n);
    }
  }

  /** The printed form of a number is a non-empty run of digits and at most a
      leading minus: no space, no line break, nothing `trim` would remove. */
  lemma ShowIsToken(x: int)
    ensures |Show(x)| >= 1 && NoSpace(Show(x))
    ensures forall k | 0 <= k < |Show(x)| :: !IsTrimmed(Show(x)[k])
    ensures forall k | 0 <= k < |Show(x)| :: Show(x)[k] != '\n' && Show(x)[k] != '\r'
  {
    var s := Show(x);
    var d := NatDigits(if x < 0 then -x else x);
    forall k | 0 <= k < |s|
      ensures s[k] == '-' || IsDigit(s[k])
    {
      if x < 0 && k > 0 {
        assert s[k] == d[k - 1];
      }
    }
  }
}
